=== FILE: README.md ===
# node-lox front end in Dafny

A model of the front end of node-lox, a TypeScript interpreter for the Lox
language. It covers:

- **Tokens** (`tokens.dfy`, module `Tokens`). The closed set of token kinds
  with their string values, the token record, and the character classes
  `isDigit`, `isDigitOrDot`, `isAlpha` and `isAlphaNumeric`. Also the
  scanner's upper-case keyword table and its case-insensitive lookup.
- **Scanners** (`scanner.dfy`, module `Scanner`; `scanner_facts.dfy`, module
  `ScannerFacts`). There are two scanners:
  - `scan` of scanner.ts;
  - its earlier copy `scanTokens` in index.ts, which has no number or word
    branch and reports errors without a component tag.

  Both are the same `for` loop over the source. A dialect parameter selects
  the `default` branch. One pass of the loop body is a `Move`:
  - it emits at most one token and consumes `length` characters;
  - or it exits fatally;
  - or it never finishes (a `//` comment with no line break after it).

  A scan yields its tokens, a fatal error or divergence. The loop is given
  twice, as a function and as a method with a mutable cursor, and the two are
  proved equal.
- **Chained environment** (`environment.dfy`, module `Scopes`). The
  `Environment` of environment.ts is a chain of name-to-value maps, innermost
  first, with `define`, `get` and `set`.
- **Flat environment** (`runtime.dfy`, module `Runtime`). The single-map
  `Environment` of runtime.ts, proved to be the chained one restricted to one
  scope.
- **Parser** (`parser.dfy`, module `Parser`). `parse` folds literals and the
  three binary operators `==`, `!=` and `+` into a left-associated tree. It
  also covers `isLiteral`, `isBinaryOperator` and `pushChild`.
- **Parent links** (`parent_links.dfy`, module `ParentLinks`). `findRoot`
  walks parent links over a map of links.

Fatal exits (`die`, or `report` followed by `process.exit`) are `Fatal`
values. Each carries the component tag, the message and the line the original
prints (`base.dfy`, module `Base`).

### Behaviour worth knowing

These three facts follow from the code:

- **Words.** An alphabetic run that is not a keyword is a fatal "failed to
  scan token" error. No identifier token is ever produced (`WordStep`).
- **Comments.** A `//` comment is consumed up to the next line break. When
  no line break follows, the original loop never ends: it keeps comparing
  `undefined` with `"\n"`. That outcome is the `Spin` move and the `Diverges`
  result (`CommentStep`).
- **Lexemes.** Neither scanner sets a token's `lexeme`. Environment lookups
  therefore use the key JavaScript derives from a missing lexeme, the string
  `"undefined"` (`LexemeKey`).

## Model

| member | source | states |
|---|---|---|
| Tokens.Text | tokens.ts:1-47 | Every kind's string value is non-empty, and a keyword's value is all lower-case letters, which is what the scanner's table maps to. |
| Tokens.FromText | scanner.ts:134 | The `as TokenType` cast of a table value: the kind whose string value is the text, or none. It has no contract of its own; FromTextInverts and TextRoundTrip state the two directions of its inverting `Text`. |
| Tokens.FromTextInverts | scanner.ts:134 | Whenever the cast yields a kind, that kind's string value is the text cast, so no other text is accepted. |
| Tokens.CharAt | scanner.ts:59-60 | `source[i]`: a character exactly when `i` is inside the string, and then the character at `i`; `undefined` outside. |
| Tokens.LexemeKey | environment.ts:16-32 | The property key that `token.lexeme` gives in `in`, in indexing and in the error text: the lexeme, or the string `"undefined"` when it is absent. It has no contract of its own; the environment contracts state their results in terms of it. |
| Tokens.TextRoundTrip | tokens.ts:1-47 | Casting a kind's string value back to `TokenType` gives that kind. |
| Tokens.TextInjective | tokens.ts:1-47 | No two token kinds share a string value. |
| Tokens.IsDigit | tokens.ts:56-59 | `isDigit` is false for `undefined` and never holds for `.`. |
| Tokens.IsDigitOrDot | tokens.ts:61-64 | `isDigitOrDot` is false for `undefined` and holds for every digit. |
| Tokens.IsAlpha | tokens.ts:66-69 | `isAlpha` is false for `undefined`, and no letter or `_` is a digit or `.`. |
| Tokens.IsAlphaNumeric | tokens.ts:71-73 | `isAlphaNumeric` is false for `undefined` and never holds for `.`, so a number's dots end a word. |
| Tokens.ClassesListed | tokens.ts:56-73 | Each character class holds exactly its listed characters: digits; digits and `.`; ASCII letters and `_`; letters, `_` and digits. `undefined` is in none of them. |
| Tokens.ClassRelations | tokens.ts:56-73 | Every digit is a digit-or-dot and alphanumeric. No letter is a digit. Alphanumeric means letter or digit, so `.` is a digit-or-dot but not alphanumeric. |
| Tokens.Keyword | scanner.ts:5-22 | Every key of the table is upper-case letters, and its value has the key's length. |
| Tokens.Upper | scanner.ts:133-134 | `toUpperCase` on the runs the scanner looks up: the result has the word's length, `a`–`z` become `A`–`Z`, and every other character is kept. On runs of ASCII letters, digits and `_` this equals `toUpperCase`. |
| Tokens.KeywordsInTable | scanner.ts:5-22 | Every keyword kind is in the table, under its upper-cased text, mapped to its own text. |
| Tokens.TableHoldsKeywords | scanner.ts:5-22 | Every key of the table maps to a string that casts to a keyword kind whose upper-cased text is that key. |
| Tokens.KeywordTable | scanner.ts:5-22 | The table is exactly the sixteen keyword kinds, in both directions. |
| Tokens.KeywordKind | scanner.ts:133-134 | A kind found for a word is a keyword whose text equals the word up to ASCII case. |
| Tokens.KeywordKindIff | scanner.ts:133-134 | A word yields keyword `k` exactly when it equals `k`'s text ignoring case. |
| Scanner.IndexFrom | scanner.ts:110-117 | The search stops at the first occurrence of the character at or after the start. Absence means no occurrence in the rest of the source. |
| Scanner.RunEnd | scanner.ts:123-124 | The run loop stops at the first character outside the class, or at the end of the source. Every character before it is in the class. |
| Scanner.SingleKind | scanner.ts:28-57 | A single-character case gives a non-EOF kind whose string value is that character. |
| Scanner.DoubleKinds | scanner.ts:58-89 | A "maybe-double" case gives the kind whose value is the character alone and the kind whose value is the character followed by `=`. |
| Scanner.Operator | scanner.ts:58-89 | The step is sound and always emits one token on the current line, adding no line. It takes two characters exactly when `=` follows, and then emits the two-character kind; otherwise it emits the one-character kind. |
| Scanner.Comment | scanner.ts:90-100 | The step is sound and never fatal. It spins exactly when no line break follows. Otherwise it emits nothing, consumes through a line break and counts one line. |
| Scanner.StringLiteral | scanner.ts:108-120 | The step is sound and never spins. It is fatal exactly when no closing quote follows, with "unterminated string" on the line reached at the end of the source. Otherwise it consumes both quotes and emits one string token on the current line, holding the text between the quotes. |
| Scanner.NumberLiteral | scanner.ts:122-127 | The step is sound, adds no line and emits one number token holding exactly the characters consumed. |
| Scanner.Word | scanner.ts:128-138 | The step is sound and never spins. When it advances it adds no line and emits one keyword token. |
| Scanner.Step | scanner.ts:27-143 | Every pass of the loop body is sound. It consumes at least one character, stays inside the source, advances the line counter by exactly the line breaks consumed, and emits at most one non-EOF token stamped with the current line. |
| Scanner.Loop | scanner.ts:25-147 | Whenever the `for` loop succeeds, its last token is EOF. |
| Scanner.LoopShape | scanner.ts:25-147 | A successful loop ends with exactly one EOF token, last, on the starting line plus every line break in the rest of the source. Token lines never decrease. |
| Scanner.LoopUnfolds | scanner.ts:25-45 | One pass of the loop prepends the step's tokens to the rest of the scan. A fatal step ends the scan with its error, and a spinning step makes it diverge. |
| Scanner.Scan | scanner.ts:4-148 | A successful `scan` ends with one EOF token on line 1 plus the source's line count. Token lines are at least 1 and non-decreasing. |
| Scanner.ScanTokens | index.ts:102-209 | The same holds for `scanTokens`. |
| Scanner.ScanLoop | scanner.ts:23-147 | The imperative loop, with a mutable token list, cursor and line counter, computes the same result as the recursive loop. |
| ScannerFacts.PunctuationStep | scanner.ts:28-57 | Each of `(){},.-+;*` emits the one token whose text is that character and consumes one character. |
| ScannerFacts.OperatorStep | scanner.ts:58-89 | `!`, `=`, `>` and `<` take two characters exactly when `=` follows. The token's text is the characters consumed. |
| ScannerFacts.SlashStep | scanner.ts:97-99 | A `/` not followed by `/` is the division token. |
| ScannerFacts.CommentStep | scanner.ts:90-96 | `//` advances exactly when a line break follows. It then consumes through the first line break, emits nothing and counts one line. Otherwise the loop never ends. |
| ScannerFacts.BlankStep | scanner.ts:101-107 | Spaces, tabs and carriage returns are skipped. A line break is skipped and counts a line. |
| ScannerFacts.StringStep | scanner.ts:108-120 | A string advances exactly when a closing quote follows. Its literal is the text between the quotes, on the line where the literal starts, and its line breaks are counted. Otherwise the step is the fatal "unterminated string" error on the line reached at the end of the source. |
| ScannerFacts.NumberStep | scanner.ts:122-127 | In `scan`, a digit starts the longest run of digits and dots, kept as the number literal's text. |
| ScannerFacts.LetterStartsWord | scanner.ts:128-130 | In `scan`, a letter or `_` starts a word. |
| ScannerFacts.WordStep | scanner.ts:128-138 | A word is the longest run of letters, digits and `_`. It is a keyword token exactly when some keyword matches it ignoring case; otherwise it is the fatal "failed to scan token". |
| ScannerFacts.EarlyRejectsWords | index.ts:201-203 | In `scanTokens`, a letter or digit outside a string or comment is fatal, reported without a component. |
| ScannerFacts.UnknownCharStep | scanner.ts:139-142 | Any character no branch accepts is fatal in both scanners. |
| ScannerFacts.SameStep | index.ts:107-200 | Wherever `scanTokens` does not exit, it takes exactly the step `scan` takes. |
| ScannerFacts.LoopsAgree | index.ts:105-206 | Two loop bodies that agree wherever the first does not exit give the same successful scans. |
| ScannerFacts.ScanTokensIsScan | index.ts:102-209 | Whenever `scanTokens` succeeds, `scan` succeeds with the same tokens. |
| Scopes.Global | environment.ts:8-11 | A new environment without an enclosing one is one empty scope. |
| Scopes.NewChild | environment.ts:8-11 | A new environment is an empty scope in front of its enclosing chain. |
| Scopes.Nearest | environment.ts:15-21 | The scope a lookup stops at holds the name, and no scope before it does. |
| Scopes.Define | environment.ts:12-14 | `define` binds the name in the innermost scope only. Every other name, and every enclosing scope, keeps its value. |
| Scopes.Get | environment.ts:15-23 | `get` succeeds exactly when some scope binds the name, and yields the innermost binding. Otherwise it is the fatal "cannot get variable … which is not defined" on the token's line. |
| Scopes.Set | environment.ts:24-33 | `set` succeeds exactly when some scope binds the name. It rebinds it in the innermost binding scope only and keeps the chain's shape. Otherwise it is the fatal "cannot set variable …". |
| Scopes.DefineShadows | environment.ts:12-23 | A definition in a child scope shadows the parent's binding, and the parent chain is untouched. |
| Scopes.GetAfterSet | environment.ts:15-33 | After a successful `set`, `get` yields the new value. |
| Scopes.GetAfterDefine | environment.ts:12-23 | After `define`, `get` yields the defined value. |
| Scopes.SetKeepsNames | environment.ts:24-33 | `set` neither adds nor removes a name in any scope. |
| Scopes.OthersUnchanged | environment.ts:12-33 | Neither `define` nor `set` changes what any other name resolves to. |
| Scopes.EnclosingFixed | environment.ts:6-10 | Neither operation changes the chain's length or the enclosing scopes' links. |
| Runtime.Define | runtime.ts:7-9 | `define` creates or overwrites the name, and no other name changes. |
| Runtime.Get | runtime.ts:10-15 | `get` succeeds exactly when the name is bound. Otherwise it is the fatal "cannot get variable …" error. |
| Runtime.Set | runtime.ts:16-22 | `set` succeeds exactly when the name is bound. It updates only that name and creates no binding. Otherwise it is the fatal "cannot set variable …" error. |
| Runtime.GetAfterDefineOrSet | runtime.ts:7-22 | `get` after `define`, or after a successful `set`, yields the value stored. |
| Runtime.FlatIsOneScope | runtime.ts:5-23 | The flat environment agrees with the chained one on a single scope: same results, same errors. |
| Parser.IsLiteral | parser.ts:60-71 | No literal kind is EOF or an identifier. |
| Parser.IsBinaryOperator | parser.ts:72-89 | No operator kind is EOF or a literal. |
| Parser.PushChild | parser.ts:33-37 | A present child is appended after the existing ones, unchanged. A missing child changes nothing. |
| Parser.Attach | parser.ts:42-47 | A literal with no root becomes the root, as a node without children. With a root, the root keeps its token and gains the literal as its last child after the unchanged existing children. |
| Parser.AttachNodes | parser.ts:42-47 | Attaching a literal, as the new root or as the root's last child, adds exactly that token to the tree. |
| Parser.Operand | parser.ts:50-56 | The inner parse of an operand that is neither an operator nor EOF succeeds exactly for a literal, which becomes the operator's last child. Any kind `parse` has no branch for is the fatal "unknown token" error on the operand's line. |
| Parser.Parse | parser.ts:40-58 | An empty list gives no tree, and EOF first gives the root. A first token of any kind with no branch is the fatal "unknown token" error on that token's line. A tree is returned only when there is an EOF. Every error is "unknown token" for a token of a kind with no branch; UnhandledFails gives the converse. |
| Parser.LiteralStep | parser.ts:42-48 | A literal becomes the root, or the root's last child, and parsing goes on after it. |
| Parser.OperatorStep | parser.ts:49-52 | An operator becomes the new root over the old root and its literal operand, consuming two tokens. A non-literal operand is the "unknown token" error. |
| Parser.UnhandledFails | parser.ts:40-58 | A token of a kind with no branch before the first EOF makes the parse fail with "unknown token" at the first such token, from any root. |
| Parser.UnknownOperand | parser.ts:49-56 | An operand `parse` has no branch for ends the parse with "unknown token" on its line, whatever follows: `1 + - +` is rejected at `-`. |
| Parser.Dispatch | parser.ts:60-89 | `isLiteral` and `isBinaryOperator` hold exactly for their listed kinds, are disjoint, and exclude EOF. |
| Parser.ChainParsable | parser.ts:49-52 | An operator-literal chain followed by EOF is accepted after a root. |
| Parser.FoldsFrom | parser.ts:49-53 | From a partial left fold as the root, the rest of the chain folds to the whole left-associated tree. |
| Parser.FoldsLeft | parser.ts:40-58 | `a op1 b op2 c … EOF` parses to the left-associated tree. |
| Parser.FoldExample | parser.ts:40-58 | `1 + 2 + 3` groups as `(1 + 2) + 3`, for any such literals and operators. |
| Parser.ParseKeepsTokens | parser.ts:40-58 | A returned tree holds exactly the starting root's tokens plus every token before the first EOF. None is dropped or duplicated. |
| ParentLinks.Top | parser.ts:21-27 | The reference root, defined by recursion on depth, has no parent. |
| ParentLinks.FindRoot | parser.ts:21-27 | The loop returns a node with no parent, reachable from the start by following links, and equal to the reference root. |
| ParentLinks.RootUnique | parser.ts:21-27 | Every parentless node reachable from a node is that node's root. |
| ParentLinks.TreeFounded | parser.ts:44-51 | The parent links `parse` sets, each child to the node it was pushed under, are acyclic. |
| ParentLinks.FindsTreeRoot | parser.ts:21-27 | From any node of a parsed tree, `findRoot` returns the tree's root. |

## Left out

- Number conversion. A number literal is kept as its digit-and-dot text. The
  original converts it with JavaScript's `Number` into a floating-point value.
- Shared enclosing environments. In the original several live `Environment`
  objects can share one `enclosing` object, so a `set` through one child is
  seen by its siblings. The model treats a chain as a value: after an
  operation on a child, the caller takes the result's tail as the updated
  parent. This is exact for nested blocks, where one child is in use at a
  time, but aliasing between sibling environments is not represented.
- Object-prototype keys. `in` on the environments' plain objects also finds
  inherited keys such as `toString`, and assigning `__proto__` is special.
  The model treats the maps as holding only what was defined.
- Output and process exit. `die` and `report` print to standard error and
  exit. The model returns a `Fatal` value carrying the same tag, message and
  line.
- Driver and other components. The driver code of index.ts outside
  `scanTokens`, main.ts, the interpreter, `AstNode.print`, and the
  `ExpressionType` enumeration are not part of this model.
- Parser.Parse: requires `Parsable`, which excludes exactly the inputs on
  which the original crashes, or links a node under itself, before it
  reports an error:
  - an operator with no tree before it;
  - an operator that is the last token;
  - an operator followed by another operator or by EOF.

  On these the original dereferences `null` or `undefined`, or pushes a node
  under itself (operator followed by EOF). The tree is an immutable value
  without parent fields. After an operand with no branch nothing more is
  required, because the original stops there with "unknown token".
- Parser.Operand: requires an operand that is neither an operator nor EOF,
  for the same reason.
- ParentLinks.FindsTreeRoot: `findRoot` is modelled on a separate map of
  links. It assumes `parse` gives every node the node it was pushed under as
  parent, and gives the root none, which `TreeLinks` states.
- Timing of the unterminated-string check. The original notices a missing
  closing quote one iteration after running past the end of the source. The
  reported line and the outcome are the same, and the model gives that
  outcome directly.

=== FILE: base.dfy ===
/**
  Shared result types of the interpreter front end.

  Every fatal exit of the original program (a call to `die`, or `report`
  followed by `process.exit`) is modelled as a `Fatal` value carrying the
  component tag, the message and the source line that would have been printed.
  Returning it stops all further work, exactly as the process exit does.
 */
module Base {

  datatype Option<+T> = None | Some(value: T)

  /** What a fatal exit reports: `[line <line>] Error <component>: <message>`. */
  datatype Fatal = Fatal(component: string, message: string, line: nat)

  /** Either the value an operation returns, or the fatal error that ended the run. */
  datatype Result<+T> = Ok(value: T) | Err(error: Fatal)
}

=== FILE: environment.dfy ===
/**
  The chained scope of environment.ts.

  An `Environment` object holds its own name-to-value map and a link to the
  enclosing environment. Following the links from one environment gives a
  chain of maps, innermost first; that chain is the model. The `enclosing`
  link is set by the constructor and never reassigned, so no operation
  changes the length of the chain: position `k` always denotes the same
  environment object. Values are of an arbitrary type `V` (the interpreter's
  literal values are not part of this model).

  Names are looked up by a token's lexeme; a token without a lexeme is looked
  up under "undefined", as JavaScript's property access does.
 */
module Scopes {
  import opened Base
  import opened Tokens

  /** The maps of an environment and of every environment enclosing it, innermost first. */
  type Chain<V> = seq<map<string, V>>

  /** `new Environment()`: one empty scope. */
  function Global<V>(): (c: Chain<V>)
    ensures |c| == 1 && c[0] == map[]
  {
    [map[]]
  }

  /** `new Environment(parent)`: an empty scope whose enclosing chain is `parent`. */
  function NewChild<V>(parent: Chain<V>): (c: Chain<V>)
    ensures |c| == |parent| + 1 && c[0] == map[] && c[1..] == parent
  {
    [map[]] + parent
  }

  /** Some scope of the chain binds `n`. */
  predicate Bound<V>(c: Chain<V>, n: string) {
    exists k :: 0 <= k < |c| && n in c[k]
  }

  /** The position of the innermost scope binding `n`. */
  function Nearest<V>(c: Chain<V>, n: string): (k: nat)
    requires Bound(c, n)
    ensures k < |c| && n in c[k]
    ensures forall j :: 0 <= j < k ==> n !in c[j]
  {
    if n in c[0] then 0 else 1 + Nearest(c[1..], n)
  }

  /** The fatal error of a failed `get`. */
  function GetError(t: Token): Fatal {
    Fatal("environment", "cannot get variable " + LexemeKey(t) + " which is not defined", t.line)
  }

  /** The fatal error of a failed `set`. */
  function SetError(t: Token): Fatal {
    Fatal("environment", "cannot set variable " + LexemeKey(t) + " which is not defined", t.line)
  }

  /**
    `define`: bind `name` to `v` in the innermost scope, creating or
    overwriting it. Every other name of that scope and every enclosing scope
    is left as it was.
   */
  function Define<V>(c: Chain<V>, name: string, v: V): (r: Chain<V>)
    requires |c| > 0
    ensures |r| == |c| && r[1..] == c[1..]
    ensures name in r[0] && r[0][name] == v
    ensures forall n :: n != name ==> (n in r[0] <==> n in c[0])
    ensures forall n :: n != name && n in c[0] ==> r[0][n] == c[0][n]
  {
    [c[0][name := v]] + c[1..]
  }

  /**
    `get`: the value of the innermost binding of the token's name, or the
    fatal "not defined" error when no scope of the chain binds it.
   */
  function Get<V>(c: Chain<V>, t: Token): (r: Result<V>)
    requires |c| > 0
    ensures r.Ok? <==> Bound(c, LexemeKey(t))
    ensures r.Ok? ==> r.value == c[Nearest(c, LexemeKey(t))][LexemeKey(t)]
    ensures r.Err? ==> r.error == GetError(t)
  {
    var n := LexemeKey(t);
    if n in c[0] then Ok(c[0][n])
    else if |c| > 1 then
      var r := Get(c[1..], t);
      assert Bound(c[1..], n) ==> Bound(c, n) by {
        if Bound(c[1..], n) {
          var k :| 0 <= k < |c[1..]| && n in c[1..][k];
          assert n in c[k + 1];
        }
      }
      assert Bound(c, n) ==> Bound(c[1..], n) by {
        if Bound(c, n) {
          var k :| 0 <= k < |c| && n in c[k];
          assert n in c[1..][k - 1];
        }
      }
      r
    else Err(GetError(t))
  }

  /**
    `set`: rebind the token's name in the innermost scope that binds it. No
    binding is ever created: when no scope binds the name the result is the
    fatal "not defined" error. Every other scope and every other name keeps
    its value, and the chain keeps its shape.
   */
  function Set<V>(c: Chain<V>, t: Token, v: V): (r: Result<Chain<V>>)
    requires |c| > 0
    ensures r.Ok? <==> Bound(c, LexemeKey(t))
    ensures r.Ok? ==> |r.value| == |c|
    ensures r.Ok? ==> forall k :: 0 <= k < |c| ==>
      r.value[k] == if k == Nearest(c, LexemeKey(t)) then c[k][LexemeKey(t) := v] else c[k]
    ensures r.Err? ==> r.error == SetError(t)
  {
    var n := LexemeKey(t);
    if n in c[0] then Ok([c[0][n := v]] + c[1..])
    else if |c| > 1 then
      match Set(c[1..], t, v)
      case Err(e) => Err(e)
      case Ok(rest) =>
        assert Bound(c, n) && Nearest(c, n) == 1 + Nearest(c[1..], n) by {
          var k := Nearest(c[1..], n);
          assert n in c[k + 1];
        }
        Ok([c[0]] + rest)
    else Err(SetError(t))
  }

  // ----- properties ----------------------------------------------------------

  /** A token whose lexeme is `n`. */
  function Name(n: string, line: nat): Token {
    Token(Identifier, Some(n), None, line)
  }

  /**
    Defining a name in a fresh child scope shadows the parent's binding of it:
    the child now yields the new value, and the parent chain is untouched.
   */
  lemma DefineShadows<V>(parent: Chain<V>, n: string, v: V, line: nat)
    ensures var child := Define(NewChild(parent), n, v);
      && Get(child, Name(n, line)) == Ok(v)
      && child[1..] == parent
  {
  }

  /** After a successful `set`, `get` of the same name from the same scope yields the new value. */
  lemma GetAfterSet<V>(c: Chain<V>, t: Token, v: V)
    requires |c| > 0 && Set(c, t, v).Ok?
    ensures Get(Set(c, t, v).value, t) == Ok(v)
  {
    var n := LexemeKey(t);
    var r := Set(c, t, v).value;
    var k := Nearest(c, n);
    assert n in r[k];
    assert Nearest(r, n) == k by {
      forall j | 0 <= j < k ensures n !in r[j] {
        assert r[j] == c[j];
      }
      NearestIsFirst(r, n, k);
    }
  }

  /** The innermost binding is the first scope holding the name. */
  lemma NearestIsFirst<V>(c: Chain<V>, n: string, k: nat)
    requires k < |c| && n in c[k] && forall j :: 0 <= j < k ==> n !in c[j]
    ensures Bound(c, n) && Nearest(c, n) == k
  {
  }

  /** After `define`, `get` of the same name from the same scope yields the defined value. */
  lemma GetAfterDefine<V>(c: Chain<V>, n: string, v: V, line: nat)
    requires |c| > 0
    ensures Get(Define(c, n, v), Name(n, line)) == Ok(v)
  {
    NearestIsFirst(Define(c, n, v), n, 0);
  }

  /** A successful `set` adds no name to any scope and removes none; a failed one returns no chain at all. */
  lemma SetKeepsNames<V>(c: Chain<V>, t: Token, v: V)
    requires |c| > 0 && Set(c, t, v).Ok?
    ensures forall k :: 0 <= k < |c| ==> Set(c, t, v).value[k].Keys == c[k].Keys
  {
    var r := Set(c, t, v).value;
    forall k | 0 <= k < |c| ensures r[k].Keys == c[k].Keys {
      if k == Nearest(c, LexemeKey(t)) {
        assert LexemeKey(t) in c[k];
      }
    }
  }

  /** Neither `define` nor `set` changes what any other name resolves to. */
  lemma OthersUnchanged<V>(c: Chain<V>, t: Token, u: Token, v: V)
    requires |c| > 0 && LexemeKey(u) != LexemeKey(t)
    ensures Get(Define(c, LexemeKey(t), v), u) == Get(c, u)
    ensures Set(c, t, v).Ok? ==> Get(Set(c, t, v).value, u) == Get(c, u)
  {
    var m := LexemeKey(u);
    var d := Define(c, LexemeKey(t), v);
    SameBindings(c, d, m);
    if Set(c, t, v).Ok? {
      SameBindings(c, Set(c, t, v).value, m);
    }
  }

  /** Two chains of the same shape that agree on every binding of `m` resolve `m` alike. */
  lemma SameBindings<V>(a: Chain<V>, b: Chain<V>, m: string)
    requires |a| == |b| > 0
    requires forall k :: 0 <= k < |a| ==> (m in a[k] <==> m in b[k])
    requires forall k :: 0 <= k < |a| && m in a[k] ==> a[k][m] == b[k][m]
    ensures Bound(a, m) <==> Bound(b, m)
    ensures Bound(a, m) ==> Nearest(a, m) == Nearest(b, m) && a[Nearest(a, m)][m] == b[Nearest(b, m)][m]
  {
    if Bound(a, m) {
      var k := Nearest(a, m);
      NearestIsFirst(b, m, k);
    }
  }

  /** Neither operation changes the shape of the chain: every enclosing link stays as constructed. */
  lemma EnclosingFixed<V>(c: Chain<V>, t: Token, v: V)
    requires |c| > 0
    ensures |Define(c, LexemeKey(t), v)| == |c|
    ensures Define(c, LexemeKey(t), v)[1..] == c[1..]
    ensures Set(c, t, v).Ok? ==> |Set(c, t, v).value| == |c|
  {
  }
}

=== FILE: parent_links.dfy ===
/**
  `AstNode.findRoot` of parser.ts: starting from a node, follow `parent`
  links until a node whose `parent` is null, and return that node.

  Parent links form a graph over node identities, which the immutable `Ast`
  of module `Parser` does not have. Here they are a map from a node to its
  parent; a node outside the map has a null parent. The loop of `findRoot`
  ends only when the links lead nowhere circular, which `Founded` expresses
  by a depth that drops along every link.

  The trees `parse` builds give every node the node it is a child of as its
  parent and give the root none; `TreeLinks` is that assignment, with nodes
  named by their path from the root.
 */
module ParentLinks {
  import opened Parser

  /** The `parent` field of every node that has one. */
  type Links<!Id> = imap<Id, Id>

  /** Every node with a parent is deeper than that parent, so following links ends. */
  ghost predicate Founded<Id>(links: Links<Id>, depth: imap<Id, nat>) {
    forall x :: x in links ==> x in depth && (links[x] in links ==> links[x] in depth && depth[links[x]] < depth[x])
  }

  /** The node reached from `x` by following at most `n` parent links. */
  function Up<Id>(links: Links<Id>, x: Id, n: nat): Id
    decreases n
  {
    if n == 0 || x !in links then x else Up(links, links[x], n - 1)
  }

  /** The parentless node above `x`, defined by recursion on the depth. */
  function Top<Id>(links: Links<Id>, depth: imap<Id, nat>, x: Id): (r: Id)
    requires Founded(links, depth)
    decreases if x in links then depth[x] + 1 else 0
    ensures r !in links
  {
    if x in links then Top(links, depth, links[x]) else x
  }

  /**
    `findRoot`: walk up from `x` while the current node has a parent. The
    result has no parent, is reached from `x` by following links, and is the
    node `Top` names.
   */
  method FindRoot<Id>(links: Links<Id>, depth: imap<Id, nat>, x: Id) returns (root: Id)
    requires Founded(links, depth)
    ensures root !in links
    ensures exists n: nat :: Up(links, x, n) == root
    ensures root == Top(links, depth, x)
  {
    root := x;
    ghost var n: nat := 0;
    while root in links
      invariant Up(links, x, n) == root
      invariant Top(links, depth, root) == Top(links, depth, x)
      decreases if root in links then depth[root] + 1 else 0
    {
      UpStep(links, x, n);
      root := links[root];
      n := n + 1;
    }
  }

  /** One more link from where `n` links led. */
  lemma {:induction false} UpStep<Id>(links: Links<Id>, x: Id, n: nat)
    requires Up(links, x, n) in links
    decreases n
    ensures Up(links, x, n + 1) == links[Up(links, x, n)]
  {
    if n > 0 {
      UpStep(links, links[x], n - 1);
    }
  }

  /**
    The root is unique: every parentless node reachable from `x` is `Top`,
    however many links it took.
   */
  lemma {:induction false} RootUnique<Id>(links: Links<Id>, depth: imap<Id, nat>, x: Id, n: nat)
    requires Founded(links, depth) && Up(links, x, n) !in links
    decreases n
    ensures Up(links, x, n) == Top(links, depth, x)
  {
    if n > 0 && x in links {
      RootUnique(links, depth, links[x], n - 1);
    }
  }

  // ----- the links of a parsed tree --------------------------------------------

  /** A node of a tree, named by the child indices leading to it from the root. */
  type Path = seq<nat>

  /** `p` names a node of `a`. */
  predicate At(a: Ast, p: Path)
    decreases |p|
  {
    |p| == 0 || (p[0] < |a.children| && At(a.children[p[0]], p[1..]))
  }

  /** Each node's parent is the node it is a child of; the root has none. */
  ghost function TreeLinks(a: Ast): Links<Path> {
    imap p | At(a, p) && |p| > 0 :: p[..|p| - 1]
  }

  /** The depth of a node is the length of its path. */
  ghost function TreeDepth(a: Ast): imap<Path, nat> {
    imap p | At(a, p) :: |p|
  }

  /** The parent of a node of the tree is itself a node of the tree. */
  lemma {:induction false} AtParent(a: Ast, p: Path)
    requires At(a, p) && |p| > 0
    decreases |p|
    ensures At(a, p[..|p| - 1])
  {
    if |p| > 1 {
      assert p[1..][..|p| - 2] == p[..|p| - 1][1..];
      AtParent(a.children[p[0]], p[1..]);
    }
  }

  /** The links of a tree lead nowhere circular. */
  lemma TreeFounded(a: Ast)
    ensures Founded(TreeLinks(a), TreeDepth(a))
  {
    var links, depth := TreeLinks(a), TreeDepth(a);
    forall p | p in links
      ensures p in depth && (links[p] in links ==> links[p] in depth && depth[links[p]] < depth[p])
    {
      AtParent(a, p);
    }
  }

  /** From any node of a tree, `findRoot` returns the tree's root. */
  lemma {:induction false} FindsTreeRoot(a: Ast, p: Path)
    requires At(a, p)
    decreases |p|
    ensures Founded(TreeLinks(a), TreeDepth(a))
    ensures Top(TreeLinks(a), TreeDepth(a), p) == []
  {
    TreeFounded(a);
    if |p| > 0 {
      AtParent(a, p);
      FindsTreeRoot(a, p[..|p| - 1]);
    }
  }
}

=== FILE: parser.dfy ===
/**
  The token-folding parser of parser.ts.

  `parse` walks the token list once, building a tree of `AstNode`s in place.
  Here the tree is an immutable value: a node is its token and its children.
  Parent links matter only to `findRoot`, which is modelled separately on an
  arena of nodes (module `ParentLinks`).

  The original mutates the nodes it is handed; each place it does so returns
  the updated tree here instead. Inputs on which the original dereferences
  `null` or `undefined`, or makes a node its own child, are excluded by the
  precondition `Parsable`.
 */
module Parser {
  import opened Base
  import opened Tokens

  datatype Ast = Node(value: Token, children: seq<Ast>)

  /** A node without children, as `new AstNode(token, parent)` builds it. */
  function Leaf(t: Token): Ast {
    Node(t, [])
  }

  /** `isLiteral`: the kinds a leaf can hold, named by their string values. */
  function IsLiteral(k: TokenType): (b: bool)
    ensures b ==> k != EOF && k != Identifier
  {
    match k
    case Number | String | True | False | Nil => true
    case _ => false
  }

  /** `isBinaryOperator`: the only operators this parser knows; none is a literal. */
  function IsBinaryOperator(k: TokenType): (b: bool)
    ensures b ==> k != EOF && !IsLiteral(k)
  {
    match k
    case EqualEqual | BangEqual | Plus => true
    case _ => false
  }

  /** `pushChild`: append a present child after the existing ones; a missing child changes nothing. */
  function PushChild(node: Ast, child: Option<Ast>): (r: Ast)
    ensures r.value == node.value
    ensures child.None? ==> r == node
    ensures child.Some? ==>
      && |r.children| == |node.children| + 1
      && r.children[..|node.children|] == node.children
      && r.children[|node.children|] == child.value
  {
    if child.Some? then Node(node.value, node.children + [child.value]) else node
  }

  /**
    The literal branch's tree: the literal becomes the root when there is
    none and is appended as the root's last child otherwise.
   */
  function Attach(root: Option<Ast>, t: Token): (r: Ast)
    ensures r.value == if root.None? then t else root.value.value
    ensures root.None? ==> r == Leaf(t)
    ensures root.Some? ==> r.children == root.value.children + [Leaf(t)]
  {
    if root.None? then Leaf(t) else PushChild(root.value, Some(Leaf(t)))
  }

  /** Attaching a literal adds exactly its token to the tree. */
  lemma {:induction false} AttachNodes(root: Option<Ast>, t: Token)
    ensures Nodes(Attach(root, t)) == NodesOpt(root) + multiset{t}
  {
    if root.Some? {
      NodesOfAppend(root.value.children, Leaf(t));
    }
  }

  /** A kind `parse` has no branch for: not a literal, not a known operator, not EOF. */
  predicate Unhandled(k: TokenType) {
    !IsLiteral(k) && !IsBinaryOperator(k) && k != EOF
  }

  /** The fatal error for a token the parser has no branch for. */
  function Unknown(t: Token): Fatal {
    Fatal("parser", "unknown token", t.line)
  }

  /**
    The inner call `parse([operand], op)` of the operator branch: a literal
    operand is appended to the new operator node (and the call itself returns
    `null`, which `pushChild` ignores); a kind `parse` has no branch for is an
    unknown token. An operator or EOF operand is excluded: there the original
    reads past the one-token list or links the node under itself.
   */
  function Operand(t: Token, op: Ast): (r: Result<Ast>)
    requires !IsBinaryOperator(t.kind) && t.kind != EOF
    ensures r.Ok? <==> IsLiteral(t.kind)
    ensures r.Ok? ==> r.value == Node(op.value, op.children + [Leaf(t)])
    ensures r.Err? ==> r.error == Unknown(t)
  {
    if IsLiteral(t.kind) then Ok(PushChild(PushChild(op, Some(Leaf(t))), None))
    else Err(Unknown(t))
  }

  /**
    The inputs on which `parse` neither reads a field of `null`/`undefined`
    nor links a node under itself: an operator needs a tree to its left and
    an operand after it that is neither another operator nor EOF. Parsing goes
    on after the operand only when it is a literal; any other operand ends
    the parse with "unknown token".
   */
  predicate Parsable(ts: seq<Token>, hasRoot: bool)
    decreases |ts|
  {
    if |ts| == 0 then true
    else if IsLiteral(ts[0].kind) then Parsable(ts[1..], true)
    else if IsBinaryOperator(ts[0].kind) then
      && hasRoot && |ts| >= 2
      && !IsBinaryOperator(ts[1].kind) && ts[1].kind != EOF
      && (IsLiteral(ts[1].kind) ==> Parsable(ts[2..], true))
    else true
  }

  /**
    `parse(tokens, root)`. A literal becomes the root when there is none and
    is appended to the root otherwise; an operator becomes the new root over
    the old root and the next token, consuming both; EOF returns the root; an
    empty list returns `null`; anything else is fatal.
   */
  function Parse(ts: seq<Token>, root: Option<Ast>): (r: Result<Option<Ast>>)
    requires Parsable(ts, root.Some?)
    decreases |ts|
    ensures |ts| == 0 ==> r == Ok(None)
    ensures |ts| > 0 && ts[0].kind == EOF ==> r == Ok(root)
    ensures |ts| > 0 && Unhandled(ts[0].kind) ==> r == Err(Unknown(ts[0]))
    ensures r.Ok? && r.value.Some? ==> EOF in Kinds(ts)
    ensures r.Err? ==> exists i :: 0 <= i < |ts| && Unhandled(ts[i].kind) && r.error == Unknown(ts[i])
  {
    if |ts| == 0 then Ok(None)
    else if IsLiteral(ts[0].kind) then
      var next := Attach(root, ts[0]);
      var r := Parse(ts[1..], Some(next));
      assert Kinds(ts[1..]) <= Kinds(ts);
      assert r.Err? ==> exists i :: 1 <= i < |ts| && Unhandled(ts[i].kind) && r.error == Unknown(ts[i]) by {
        if r.Err? {
          var i :| 0 <= i < |ts[1..]| && Unhandled(ts[1..][i].kind) && r.error == Unknown(ts[1..][i]);
          assert ts[i + 1] == ts[1..][i];
        }
      }
      r
    else if IsBinaryOperator(ts[0].kind) then
      var op := Node(ts[0], [root.value]);
      match Operand(ts[1], op)
      case Err(e) =>
        assert Unhandled(ts[1].kind);
        Err(e)
      case Ok(op') =>
        var r := Parse(ts[2..], Some(op'));
        assert Kinds(ts[2..]) <= Kinds(ts);
        assert r.Err? ==> exists i :: 2 <= i < |ts| && Unhandled(ts[i].kind) && r.error == Unknown(ts[i]) by {
          if r.Err? {
            var i :| 0 <= i < |ts[2..]| && Unhandled(ts[2..][i].kind) && r.error == Unknown(ts[2..][i]);
            assert ts[i + 2] == ts[2..][i];
          }
        }
        r
    else if ts[0].kind == EOF then Ok(root)
    else Err(Unknown(ts[0]))
  }

  /** The kinds of a token list. */
  function Kinds(ts: seq<Token>): (ks: set<TokenType>)
    ensures forall k :: k in ks <==> exists i :: 0 <= i < |ts| && ts[i].kind == k
  {
    set i | 0 <= i < |ts| :: ts[i].kind
  }

  /**
    A literal becomes the root when there is none and is appended as the
    last child of the root otherwise; parsing goes on after it.
   */
  lemma {:induction false} LiteralStep(ts: seq<Token>, root: Option<Ast>)
    requires |ts| > 0 && IsLiteral(ts[0].kind) && Parsable(ts, root.Some?)
    ensures Parsable(ts[1..], true) && Parse(ts, root) == Parse(ts[1..], Some(Attach(root, ts[0])))
  {
  }

  /**
    An operator becomes the new root, with the old root as its first child
    and the literal after it as its second; exactly two tokens are consumed.
   */
  lemma {:induction false} OperatorStep(ts: seq<Token>, root: Ast)
    requires |ts| > 0 && IsBinaryOperator(ts[0].kind) && Parsable(ts, true)
    ensures IsLiteral(ts[1].kind) ==>
      Parsable(ts[2..], true) && Parse(ts, Some(root)) == Parse(ts[2..], Some(Node(ts[0], [root, Leaf(ts[1])])))
    ensures !IsLiteral(ts[1].kind) ==> Parse(ts, Some(root)) == Err(Unknown(ts[1]))
  {
    assert [root] + [Leaf(ts[1])] == [root, Leaf(ts[1])];
  }

  /**
    An operand `parse` has no branch for ends the parse at once, whatever
    follows it: `1 + - +` is "unknown token" on the line of `-`.
   */
  lemma {:induction false} UnknownOperand(lit: Token, op: Token, bad: Token, rest: seq<Token>)
    requires IsLiteral(lit.kind) && IsBinaryOperator(op.kind) && Unhandled(bad.kind)
    ensures Parsable([lit, op, bad] + rest, false)
    ensures Parse([lit, op, bad] + rest, None) == Err(Unknown(bad))
  {
    var ts := [lit, op, bad] + rest;
    assert ts[1..] == [op, bad] + rest;
    assert Parsable(ts[1..], true);
    LiteralStep(ts, None);
    OperatorStep(ts[1..], Attach(None, lit));
  }

  /**
    The converse of `Parse`'s error clause: a token of a kind with no branch
    before the first EOF makes the parse fail, at the first such token.
   */
  lemma {:induction false} UnhandledFails(ts: seq<Token>, root: Option<Ast>, j: nat)
    requires Parsable(ts, root.Some?)
    requires j < |BeforeEof(ts)| && Unhandled(ts[j].kind)
    requires forall k :: 0 <= k < j ==> !Unhandled(ts[k].kind)
    decreases |ts|
    ensures Parse(ts, root) == Err(Unknown(ts[j]))
  {
    var p := BeforeEof(ts);
    assert p[0] == ts[0];
    if j > 0 {
      if IsLiteral(ts[0].kind) {
        LiteralStep(ts, root);
        BeforeEofStep(ts);
        assert ts[1..][j - 1] == ts[j];
        UnhandledFails(ts[1..], Some(Attach(root, ts[0])), j - 1);
      } else {
        OperatorStep(ts, root.value);
        if j > 1 {
          assert p[1] == ts[1];
          TwoBeforeEof(ts);
          assert ts[2..][j - 2] == ts[j];
          UnhandledFails(ts[2..], Some(Node(ts[0], [root.value, Leaf(ts[1])])), j - 2);
        }
      }
    }
  }

  /** The three dispatch classes of `parse` are disjoint and exactly the listed kinds. */
  lemma Dispatch(k: TokenType)
    ensures IsLiteral(k) <==> k in {Number, String, True, False, Nil}
    ensures IsBinaryOperator(k) <==> k in {EqualEqual, BangEqual, Plus}
    ensures !(IsLiteral(k) && IsBinaryOperator(k))
    ensures !IsLiteral(EOF) && !IsBinaryOperator(EOF)
  {
  }

  // ----- left folding ----------------------------------------------------------

  /** The tokens of `first op1 lit1 op2 lit2 ...`, without the first. */
  function Flatten(pairs: seq<(Token, Token)>): (ts: seq<Token>)
    ensures |ts| == 2 * |pairs|
    ensures forall k :: 0 <= k < |pairs| ==> ts[2 * k] == pairs[k].0 && ts[2 * k + 1] == pairs[k].1
  {
    if pairs == [] then [] else [pairs[0].0, pairs[0].1] + Flatten(pairs[1..])
  }

  /**
    The left-associated tree of `first op1 lit1 ... opN litN`: the last
    operator on top, everything before it as its left operand.
   */
  function LeftAssoc(first: Token, pairs: seq<(Token, Token)>): Ast
    decreases |pairs|
  {
    if pairs == [] then Leaf(first)
    else
      var last := pairs[|pairs| - 1];
      Node(last.0, [LeftAssoc(first, pairs[..|pairs| - 1]), Leaf(last.1)])
  }

  /** Operators paired with literal operands. */
  predicate Chained(pairs: seq<(Token, Token)>) {
    forall k :: 0 <= k < |pairs| ==> IsBinaryOperator(pairs[k].0.kind) && IsLiteral(pairs[k].1.kind)
  }

  lemma {:induction false} ChainParsable(pairs: seq<(Token, Token)>, eof: Token)
    requires Chained(pairs) && eof.kind == EOF
    ensures Parsable(Flatten(pairs) + [eof], true)
  {
    if pairs != [] {
      var ts := Flatten(pairs) + [eof];
      assert ts[2..] == Flatten(pairs[1..]) + [eof];
      ChainParsable(pairs[1..], eof);
    }
  }

  /**
    With `LeftAssoc(first, pairs[..k])` as the root, the rest of the chain
    and EOF parse to the left-associated tree of the whole chain.
   */
  lemma {:induction false} FoldsFrom(first: Token, pairs: seq<(Token, Token)>, k: nat, eof: Token)
    requires k <= |pairs| && Chained(pairs) && eof.kind == EOF
    decreases |pairs| - k
    ensures Chained(pairs[k..]) && Parsable(Flatten(pairs[k..]) + [eof], true)
    ensures Parse(Flatten(pairs[k..]) + [eof], Some(LeftAssoc(first, pairs[..k]))) == Ok(Some(LeftAssoc(first, pairs)))
  {
    assert Chained(pairs[k..]);
    ChainParsable(pairs[k..], eof);
    if k == |pairs| {
      assert pairs[..k] == pairs;
    } else {
      var ts := Flatten(pairs[k..]) + [eof];
      assert pairs[k..][1..] == pairs[k + 1..];
      assert ts[2..] == Flatten(pairs[k + 1..]) + [eof];
      assert pairs[..k + 1][..k] == pairs[..k];
      assert ts[0] == pairs[k].0 && ts[1] == pairs[k].1;
      assert LeftAssoc(first, pairs[..k + 1]) == Node(pairs[k].0, [LeftAssoc(first, pairs[..k]), Leaf(pairs[k].1)]);
      OperatorStep(ts, LeftAssoc(first, pairs[..k]));
      FoldsFrom(first, pairs, k + 1, eof);
    }
  }

  /** Operator chains fold to the left: `a + b + c EOF` parses to `+(+(a, b), c)`. */
  lemma {:induction false} FoldsLeft(first: Token, pairs: seq<(Token, Token)>, eof: Token)
    requires IsLiteral(first.kind) && Chained(pairs) && eof.kind == EOF
    ensures Parsable([first] + Flatten(pairs) + [eof], false)
    ensures Parse([first] + Flatten(pairs) + [eof], None) == Ok(Some(LeftAssoc(first, pairs)))
  {
    var ts := [first] + Flatten(pairs) + [eof];
    FoldsFrom(first, pairs, 0, eof);
    assert pairs[0..] == pairs && pairs[..0] == [];
    assert ts[0] == first && ts[1..] == Flatten(pairs) + [eof];
    assert Parsable(ts, false);
    LiteralStep(ts, None);
  }

  /** `1 + 2 + 3` groups as `(1 + 2) + 3`, and so does any such chain. */
  lemma {:induction false} FoldExample(a: Token, p: Token, b: Token, q: Token, c: Token, eof: Token)
    requires IsLiteral(a.kind) && IsLiteral(b.kind) && IsLiteral(c.kind)
    requires IsBinaryOperator(p.kind) && IsBinaryOperator(q.kind) && eof.kind == EOF
    ensures Parsable([a, p, b, q, c, eof], false)
    ensures Parse([a, p, b, q, c, eof], None) == Ok(Some(Node(q, [Node(p, [Leaf(a), Leaf(b)]), Leaf(c)])))
  {
    var pairs := [(p, b), (q, c)];
    FoldsLeft(a, pairs, eof);
    ExampleTokens(a, p, b, q, c, eof);
    ExampleTree(a, p, b, q, c);
  }

  lemma {:induction false} ExampleTokens(a: Token, p: Token, b: Token, q: Token, c: Token, eof: Token)
    ensures [a] + Flatten([(p, b), (q, c)]) + [eof] == [a, p, b, q, c, eof]
  {
    var pairs := [(p, b), (q, c)];
    assert pairs[1..][1..] == [];
    assert Flatten(pairs) == [p, b, q, c];
  }

  lemma {:induction false} ExampleTree(a: Token, p: Token, b: Token, q: Token, c: Token)
    ensures LeftAssoc(a, [(p, b), (q, c)]) == Node(q, [Node(p, [Leaf(a), Leaf(b)]), Leaf(c)])
  {
    var pairs := [(p, b), (q, c)];
    assert pairs[..1] == [(p, b)] && pairs[..1][..0] == [];
    assert LeftAssoc(a, pairs[..1][..0]) == Leaf(a);
    assert LeftAssoc(a, pairs[..1]) == Node(p, [Leaf(a), Leaf(b)]);
  }

  // ----- no token is lost or invented -----------------------------------------

  /** The tokens of a tree, one per node. */
  function Nodes(a: Ast): multiset<Token>
    decreases a
  {
    multiset{a.value} + NodesOf(a.children)
  }

  function NodesOf(cs: seq<Ast>): multiset<Token>
    decreases cs
  {
    if cs == [] then multiset{} else Nodes(cs[0]) + NodesOf(cs[1..])
  }

  lemma {:induction false} NodesOfAppend(cs: seq<Ast>, c: Ast)
    decreases |cs|
    ensures NodesOf(cs + [c]) == NodesOf(cs) + Nodes(c)
  {
    if cs == [] {
      assert [c][1..] == [];
    } else {
      assert (cs + [c])[1..] == cs[1..] + [c];
      NodesOfAppend(cs[1..], c);
    }
  }

  lemma {:induction false} NodesOfPair(v: Token, a: Ast, b: Ast)
    ensures Nodes(Node(v, [a, b])) == multiset{v} + Nodes(a) + Nodes(b)
  {
    assert [a, b][1..] == [b];
    assert [b][1..] == [];
    assert NodesOf([b]) == Nodes(b) + NodesOf([]);
    assert NodesOf([a, b]) == Nodes(a) + NodesOf([b]);
  }

  /** The tokens before the first EOF. */
  function BeforeEof(ts: seq<Token>): (p: seq<Token>)
    ensures |p| <= |ts| && p == ts[..|p|]
    ensures forall k :: 0 <= k < |p| ==> p[k].kind != EOF
    ensures |p| < |ts| ==> ts[|p|].kind == EOF
  {
    if ts == [] || ts[0].kind == EOF then [] else [ts[0]] + BeforeEof(ts[1..])
  }

  function NodesOpt(root: Option<Ast>): multiset<Token> {
    if root.Some? then Nodes(root.value) else multiset{}
  }

  /** The tree parsed from `ts` with `root`, if any, holds the root's tokens and those before the first EOF. */
  predicate KeepsTokens(ts: seq<Token>, root: Option<Ast>)
    requires Parsable(ts, root.Some?)
  {
    var r := Parse(ts, root);
    r.Ok? && r.value.Some? ==> Nodes(r.value.value) == NodesOpt(root) + multiset(BeforeEof(ts))
  }

  /**
    A tree `parse` returns holds exactly the tokens it started with plus
    every token before the first EOF: none is dropped or duplicated.
   */
  lemma {:induction false} ParseKeepsTokens(ts: seq<Token>, root: Option<Ast>)
    requires Parsable(ts, root.Some?)
    decreases |ts|
    ensures KeepsTokens(ts, root)
  {
    if |ts| > 0 && ts[0].kind != EOF {
      if IsLiteral(ts[0].kind) {
        var next := LiteralFacts(ts, root);
        ParseKeepsTokens(ts[1..], Some(next));
        KeepsAfter(ts, root, 1, next);
      } else if IsBinaryOperator(ts[0].kind) && IsLiteral(ts[1].kind) {
        var next := OperatorFacts(ts, root.value);
        ParseKeepsTokens(ts[2..], Some(next));
        KeepsAfter(ts, root, 2, next);
      }
    }
  }

  /** A literal step: the new root holds the old root's tokens and the literal. */
  lemma {:induction false} LiteralFacts(ts: seq<Token>, root: Option<Ast>) returns (next: Ast)
    requires |ts| > 0 && IsLiteral(ts[0].kind) && Parsable(ts, root.Some?)
    ensures Parsable(ts[1..], true) && Parse(ts, root) == Parse(ts[1..], Some(next))
    ensures Nodes(next) == NodesOpt(root) + multiset(ts[..1])
    ensures BeforeEof(ts) == ts[..1] + BeforeEof(ts[1..])
  {
    next := Attach(root, ts[0]);
    AttachNodes(root, ts[0]);
    assert ts[..1] == [ts[0]];
    LiteralStep(ts, root);
    BeforeEofStep(ts);
  }

  /** An operator step: the new root holds the old root's tokens, the operator and its operand. */
  lemma {:induction false} OperatorFacts(ts: seq<Token>, root: Ast) returns (next: Ast)
    requires |ts| > 1 && IsBinaryOperator(ts[0].kind) && IsLiteral(ts[1].kind) && Parsable(ts, true)
    ensures Parsable(ts[2..], true) && Parse(ts, Some(root)) == Parse(ts[2..], Some(next))
    ensures Nodes(next) == Nodes(root) + multiset(ts[..2])
    ensures BeforeEof(ts) == ts[..2] + BeforeEof(ts[2..])
  {
    next := Node(ts[0], [root, Leaf(ts[1])]);
    OperatorNodes(ts, root);
    OperatorStep(ts, root);
    TwoBeforeEof(ts);
  }

  lemma {:induction false} OperatorNodes(ts: seq<Token>, root: Ast)
    requires |ts| > 1
    ensures Nodes(Node(ts[0], [root, Leaf(ts[1])])) == Nodes(root) + multiset(ts[..2])
  {
    NodesOfPair(ts[0], root, Leaf(ts[1]));
    assert ts[..2] == [ts[0], ts[1]];
    assert Nodes(Leaf(ts[1])) == multiset{ts[1]};
  }

  lemma {:induction false} TwoBeforeEof(ts: seq<Token>)
    requires |ts| > 1 && ts[0].kind != EOF && ts[1].kind != EOF
    ensures BeforeEof(ts) == ts[..2] + BeforeEof(ts[2..])
  {
    BeforeEofStep(ts);
    BeforeEofStep(ts[1..]);
    assert ts[1..][1..] == ts[2..];
    assert ts[..2] == [ts[0], ts[1]];
  }

  /** A token other than EOF is kept, and the search for EOF goes on after it. */
  lemma BeforeEofStep(ts: seq<Token>)
    requires |ts| > 0 && ts[0].kind != EOF
    ensures BeforeEof(ts) == [ts[0]] + BeforeEof(ts[1..])
  {
  }

  /**
    When parsing `ts` from `root` goes on as parsing `ts[k..]` from a tree
    holding the root's tokens and the `k` consumed ones, and none of those
    is EOF, the token count carries over.
   */
  lemma {:induction false} KeepsAfter(ts: seq<Token>, root: Option<Ast>, k: nat, next: Ast)
    requires k <= |ts| && Parsable(ts, root.Some?) && Parsable(ts[k..], true)
    requires KeepsTokens(ts[k..], Some(next))
    requires Nodes(next) == NodesOpt(root) + multiset(ts[..k])
    requires Parse(ts, root) == Parse(ts[k..], Some(next))
    requires BeforeEof(ts) == ts[..k] + BeforeEof(ts[k..])
    ensures KeepsTokens(ts, root)
  {
  }

}

=== FILE: runtime.dfy ===
/**
  The flat environment of runtime.ts: a single name-to-value map with no
  enclosing scope. It behaves as a chain of exactly one scope.
 */
module Runtime {
  import opened Base
  import opened Tokens
  import Scopes

  type Env<V> = map<string, V>

  /** `define`: create or overwrite `name`; no other name changes. */
  function Define<V>(m: Env<V>, name: string, v: V): (r: Env<V>)
    ensures name in r && r[name] == v
    ensures forall n :: n != name ==> (n in r <==> n in m)
    ensures forall n :: n != name && n in m ==> r[n] == m[n]
  {
    m[name := v]
  }

  /** `get`: the bound value, or the fatal "not defined" error. */
  function Get<V>(m: Env<V>, t: Token): (r: Result<V>)
    ensures r.Ok? <==> LexemeKey(t) in m
    ensures r.Ok? ==> r.value == m[LexemeKey(t)]
    ensures r.Err? ==> r.error == Scopes.GetError(t)
  {
    if LexemeKey(t) in m then Ok(m[LexemeKey(t)]) else Err(Scopes.GetError(t))
  }

  /**
    `set`: update an existing binding, leaving every other name unchanged;
    an unbound name is the fatal "not defined" error and creates nothing.
   */
  function Set<V>(m: Env<V>, t: Token, v: V): (r: Result<Env<V>>)
    ensures r.Ok? <==> LexemeKey(t) in m
    ensures r.Ok? ==> r.value.Keys == m.Keys && r.value[LexemeKey(t)] == v
    ensures r.Ok? ==> forall n :: n in m && n != LexemeKey(t) ==> r.value[n] == m[n]
    ensures r.Err? ==> r.error == Scopes.SetError(t)
  {
    if LexemeKey(t) in m then Ok(m[LexemeKey(t) := v]) else Err(Scopes.SetError(t))
  }

  /** After `define(n, v)` or a successful `set(n, v)`, `get(n)` yields `v`. */
  lemma GetAfterDefineOrSet<V>(m: Env<V>, t: Token, v: V)
    ensures Get(Define(m, LexemeKey(t), v), t) == Ok(v)
    ensures Set(m, t, v).Ok? ==> Get(Set(m, t, v).value, t) == Ok(v)
  {
  }

  /** The flat environment is the chained one restricted to a single scope. */
  lemma FlatIsOneScope<V>(m: Env<V>, t: Token, v: V)
    ensures Get(m, t) == Scopes.Get([m], t)
    ensures [Define(m, LexemeKey(t), v)] == Scopes.Define([m], LexemeKey(t), v)
    ensures Set(m, t, v).Ok? <==> Scopes.Set([m], t, v).Ok?
    ensures Set(m, t, v).Ok? ==> [Set(m, t, v).value] == Scopes.Set([m], t, v).value
    ensures Set(m, t, v).Err? ==> Set(m, t, v).error == Scopes.Set([m], t, v).error
  {
    var n := LexemeKey(t);
    if n in m {
      Scopes.NearestIsFirst([m], n, 0);
    } else {
      assert !Scopes.Bound([m], n);
    }
  }
}

=== FILE: scanner.dfy ===
/**
  The lexical scanner: `scan` (scanner.ts) and its earlier copy `scanTokens`
  (index.ts:102-209), which has no number or word tokens.

  Both are one loop over the source: at position `i` the current character
  decides what is emitted and how many characters (`length`) are consumed.
  `Step` is that loop body; `Loop` is the loop, over any such body;
  `ScanLoop` is the same loop written imperatively. The two scanners differ only in the `default` branch,
  so they are one definition with a `Dialect` parameter.

  A `//` comment with no newline after it makes the original loop forever
  (`source[ii]` stays `undefined`, which is never "\n"); that outcome is the
  `Spin` step and the `Diverges` scan result.
 */
module Scanner {
  import opened Base
  import opened Tokens

  /** `scanTokens` of index.ts (`Early`) or `scan` of scanner.ts (`Full`). */
  datatype Dialect = Early | Full

  /** The location tag each scanner prints with a fatal error. */
  function Component(d: Dialect): string {
    match d
    case Early => ""
    case Full => "scanner"
  }

  /** The number of line breaks in `s`. */
  function Newlines(s: string): nat {
    multiset(s)['\n']
  }

  /** A token without payload, as the punctuation, keyword and EOF tokens are built. */
  function Tok(k: TokenType, line: nat): Token {
    Token(k, None, None, line)
  }

  /**
    What one pass of the loop body does: emit at most one token, consume
    `length` characters and leave the line counter at `line`; or exit fatally;
    or never finish.
   */
  datatype Move = Advance(emitted: seq<Token>, length: nat, line: nat) | Halt(error: Fatal) | Spin

  /**
    A step from position `i` on line `line` is sound when it consumes at least
    one character without running past the end, advances the line counter by
    exactly the line breaks it consumed, and emits at most one non-EOF token
    stamped with the line the step started on.
   */
  predicate Sound(src: string, i: nat, line: nat, s: Move)
    requires i < |src|
  {
    s.Advance? ==>
      && 1 <= s.length
      && i + s.length <= |src|
      && s.line == line + Newlines(src[i..i + s.length])
      && |s.emitted| <= 1
      && (forall t :: t in s.emitted ==> t.line == line && t.kind != EOF)
  }

  // ----- searching the source ------------------------------------------------

  /** The first index at or after `j` holding `c`. */
  function IndexFrom(s: string, j: nat, c: char): (r: Option<nat>)
    requires j <= |s|
    decreases |s| - j
    ensures r.Some? ==> j <= r.value < |s| && s[r.value] == c && c !in s[j..r.value]
    ensures r.None? ==> c !in s[j..]
  {
    if j == |s| then None
    else if s[j] == c then Some(j)
    else
      var r := IndexFrom(s, j + 1, c);
      assert s[j..] == [s[j]] + s[j + 1..];
      assert r.Some? ==> s[j..r.value] == [s[j]] + s[j + 1..r.value];
      r
  }

  /**
    Where a run of characters satisfying `p` that starts at `i` ends: the loop
    `for (; p(source[ii]); ii++) {}`. `p` rejects `undefined`, so the run stops
    at the end of the source at the latest.
   */
  function RunEnd(s: string, i: nat, p: Option<char> -> bool): (e: nat)
    requires i <= |s|
    requires !p(None)
    decreases |s| - i
    ensures i <= e <= |s|
    ensures forall k :: i <= k < e ==> p(Some(s[k]))
    ensures !p(CharAt(s, e))
  {
    if p(CharAt(s, i)) then RunEnd(s, i + 1, p) else i
  }

  lemma NewlinesSplit(s: string, i: nat, j: nat)
    requires i <= j <= |s|
    ensures Newlines(s[i..]) == Newlines(s[i..j]) + Newlines(s[j..])
  {
    assert s[i..] == s[i..j] + s[j..];
  }

  lemma NoNewlines(s: string, p: Option<char> -> bool)
    requires !p(Some('\n'))
    requires forall k :: 0 <= k < |s| ==> p(Some(s[k]))
    ensures Newlines(s) == 0
  {
    assert '\n' !in s;
  }

  // ----- the branches of the loop body --------------------------------------

  /** The single-character punctuation cases of the `switch`. */
  function SingleKind(c: char): (r: Option<TokenType>)
    ensures r.Some? ==> Text(r.value) == [c] && r.value != EOF
  {
    match c
    case '(' => Some(OpenParen) case ')' => Some(CloseParen)
    case '{' => Some(OpenCurly) case '}' => Some(CloseCurly)
    case ',' => Some(Comma) case '.' => Some(Dot)
    case '+' => Some(Plus) case '-' => Some(Minus)
    case ';' => Some(Semicolon) case '*' => Some(Asterisk)
    case _ => None
  }

  /** The "maybe-double" cases: the kind alone, and the kind when `=` follows. */
  function DoubleKinds(c: char): (r: Option<(TokenType, TokenType)>)
    ensures r.Some? ==> Text(r.value.0) == [c] && Text(r.value.1) == [c, '=']
  {
    match c
    case '!' => Some((Bang, BangEqual))
    case '=' => Some((Equal, EqualEqual))
    case '>' => Some((Greater, GreaterEqual))
    case '<' => Some((Lesser, LesserEqual))
    case _ => None
  }

  /**
    A "maybe-double" operator: the two-character kind when `=` follows, the
    one-character kind otherwise; always one token on the current line.
   */
  function Operator(src: string, i: nat, line: nat, one: TokenType, two: TokenType): (s: Move)
    requires i < |src| && src[i] != '\n'
    requires one != EOF && two != EOF
    ensures Sound(src, i, line, s)
    ensures s.Advance? && |s.emitted| == 1 && s.line == line
    ensures s.length == 2 <==> CharAt(src, i + 1) == Some('=')
    ensures s.emitted[0].kind == if s.length == 2 then two else one
  {
    if CharAt(src, i + 1) == Some('=') then
      assert src[i..i + 2] == [src[i], '='];
      Advance([Tok(two, line)], 2, line)
    else
      assert src[i..i + 1] == [src[i]];
      Advance([Tok(one, line)], 1, line)
  }

  /** A `//` comment: everything up to and including the next line break. */
  function Comment(src: string, i: nat, line: nat): (s: Move)
    requires i + 1 < |src| && src[i] == '/' && src[i + 1] == '/'
    ensures Sound(src, i, line, s)
    ensures !s.Halt?
    ensures s.Spin? <==> '\n' !in src[i + 1..]
    ensures s.Advance? ==> s.emitted == [] && s.line == line + 1 && src[i + s.length - 1] == '\n'
  {
    match IndexFrom(src, i + 1, '\n')
    case None => Spin
    case Some(j) =>
      assert src[i..j + 1] == [src[i]] + src[i + 1..j] + [src[j]];
      assert multiset(src[i..j + 1]) == multiset([src[i]]) + multiset(src[i + 1..j]) + multiset([src[j]]);
      Advance([], j - i + 1, line + 1)
  }

  /**
    A string literal: the raw text up to the next `"`, on the line the literal
    starts; line breaks inside it still advance the counter.
   */
  function StringLiteral(d: Dialect, src: string, i: nat, line: nat): (s: Move)
    requires i < |src| && src[i] == '"'
    ensures Sound(src, i, line, s)
    ensures !s.Spin?
    ensures s.Halt? <==> '"' !in src[i + 1..]
    ensures s.Halt? ==> s.error == Fatal(Component(d), "unterminated string", line + Newlines(src[i + 1..]))
    ensures s.Advance? ==>
      && 2 <= s.length && src[i + s.length - 1] == '"'
      && s.emitted == [Token(String, None, Some(src[i + 1..i + s.length - 1]), line)]
  {
    match IndexFrom(src, i + 1, '"')
    case None => Halt(Fatal(Component(d), "unterminated string", line + Newlines(src[i + 1..])))
    case Some(j) =>
      var n := j - i + 1;
      assert i + n - 1 == j;
      assert src[i..j + 1] == [src[i]] + src[i + 1..j] + [src[j]];
      assert multiset(src[i..j + 1]) == multiset([src[i]]) + multiset(src[i + 1..j]) + multiset([src[j]]);
      Advance([Token(String, None, Some(src[i + 1..j]), line)], n, line + Newlines(src[i + 1..j]))
  }

  /** A number literal: the longest run of digits and dots. */
  function NumberLiteral(src: string, i: nat, line: nat): (s: Move)
    requires i < |src| && IsDigit(Some(src[i]))
    ensures Sound(src, i, line, s)
    ensures s.Advance? && s.line == line
    ensures s.emitted == [Token(Number, None, Some(src[i..i + s.length]), line)]
  {
    var e := RunEnd(src, i, IsDigitOrDot);
    NoNewlines(src[i..e], IsDigitOrDot);
    Advance([Token(Number, None, Some(src[i..e]), line)], e - i, line)
  }

  /** An alphabetic run: a keyword, compared case-insensitively, or a fatal error. */
  function Word(src: string, i: nat, line: nat): (s: Move)
    requires i < |src| && IsAlpha(Some(src[i]))
    ensures Sound(src, i, line, s)
    ensures !s.Spin?
    ensures s.Advance? ==> s.line == line && |s.emitted| == 1 && IsKeyword(s.emitted[0].kind)
  {
    var e := RunEnd(src, i, IsAlphaNumeric);
    NoNewlines(src[i..e], IsAlphaNumeric);
    match KeywordKind(src[i..e])
    case Some(k) => Advance([Tok(k, line)], e - i, line)
    case None => Halt(Fatal("scanner", "failed to scan token", line))
  }

  /** One pass of the loop body at position `i`. */
  function Step(d: Dialect, src: string, i: nat, line: nat): (s: Move)
    requires i < |src|
    ensures Sound(src, i, line, s)
  {
    var c := src[i];
    if SingleKind(c).Some? then
      assert src[i..i + 1] == [c];
      Advance([Tok(SingleKind(c).value, line)], 1, line)
    else if DoubleKinds(c).Some? then
      Operator(src, i, line, DoubleKinds(c).value.0, DoubleKinds(c).value.1)
    else if c == '/' then
      if CharAt(src, i + 1) == Some('/') then Comment(src, i, line)
      else
        assert src[i..i + 1] == [c];
        Advance([Tok(ForwardSlash, line)], 1, line)
    else if c == ' ' || c == '\r' || c == '\t' then
      assert src[i..i + 1] == [c];
      Advance([], 1, line)
    else if c == '\n' then
      assert src[i..i + 1] == [c];
      Advance([], 1, line + 1)
    else if c == '"' then
      StringLiteral(d, src, i, line)
    else if d == Full && IsDigit(Some(c)) then
      NumberLiteral(src, i, line)
    else if d == Full && IsAlpha(Some(c)) then
      Word(src, i, line)
    else
      Halt(Fatal(Component(d), "failed to scan token", line))
  }

  // ----- the loop -------------------------------------------------------------

  /** A scan either yields its whole token list, or a fatal error and no tokens, or never ends. */
  datatype ScanResult = Scanned(tokens: seq<Token>) | Failed(error: Fatal) | Diverges

  /** The loop body as a function of the position and the line counter. */
  type Body = (nat, nat) -> Move

  /** Every pass of `body` over `src` that advances consumes at least one character and stays inside the source. */
  ghost predicate Progresses(src: string, body: Body) {
    forall i: nat, line: nat :: i < |src| && body(i, line).Advance? ==> 1 <= body(i, line).length <= |src| - i
  }

  /** Every pass of `body` over `src` is a sound step. */
  ghost predicate SoundBody(src: string, body: Body) {
    && Progresses(src, body)
    && forall i: nat, line: nat :: i < |src| ==> Sound(src, i, line, body(i, line))
  }

  /** The loop body of either scanner over `src`. */
  function BodyOf(d: Dialect, src: string): (b: Body)
    ensures SoundBody(src, b)
    ensures forall i: nat, line: nat :: i < |src| ==> b(i, line) == Step(d, src, i, line)
  {
    (i: nat, line: nat) => if i < |src| then Step(d, src, i, line) else Spin
  }

  /** Exactly one EOF token, last, on line `line`. */
  predicate EndsWithEof(ts: seq<Token>, line: nat) {
    && |ts| > 0
    && ts[|ts| - 1] == Tok(EOF, line)
    && forall k :: 0 <= k < |ts| - 1 ==> ts[k].kind != EOF
  }

  /** Every token is on line `line` or later, and lines never decrease along the list. */
  predicate LinesFrom(ts: seq<Token>, line: nat) {
    && (forall k :: 0 <= k < |ts| ==> line <= ts[k].line)
    && (forall a, b :: 0 <= a < b < |ts| ==> ts[a].line <= ts[b].line)
  }

  function Prepend(ts: seq<Token>, r: ScanResult): ScanResult {
    if r.Scanned? then Scanned(ts + r.tokens) else r
  }

  lemma PrependTwice(a: seq<Token>, b: seq<Token>, r: ScanResult)
    ensures Prepend(a, Prepend(b, r)) == Prepend(a + b, r)
  {
    if r.Scanned? {
      assert a + (b + r.tokens) == (a + b) + r.tokens;
    }
  }

  /** Putting one step's tokens in front of the rest of a scan keeps EOF last and lines ordered. */
  lemma PrependStep(ts: seq<Token>, rest: seq<Token>, line: nat, next: nat, final: nat)
    requires |ts| <= 1 && forall t :: t in ts ==> t.line == line && t.kind != EOF
    requires line <= next
    requires EndsWithEof(rest, final) && LinesFrom(rest, next)
    ensures EndsWithEof(ts + rest, final) && LinesFrom(ts + rest, line)
  {
    var all := ts + rest;
    if |ts| == 1 {
      assert all[0] == ts[0];
      assert forall k :: 1 <= k < |all| ==> all[k] == rest[k - 1];
    } else {
      assert all == rest;
    }
  }

  /** A sound advancing step in front of a well-shaped rest of the scan gives a well-shaped scan. */
  lemma AdvanceKeepsShape(src: string, i: nat, line: nat, s: Move, rest: seq<Token>)
    requires i < |src| && Sound(src, i, line, s) && s.Advance?
    requires EndsWithEof(rest, s.line + Newlines(src[i + s.length..])) && LinesFrom(rest, s.line)
    ensures EndsWithEof(s.emitted + rest, line + Newlines(src[i..])) && LinesFrom(s.emitted + rest, line)
  {
    NewlinesSplit(src, i, i + s.length);
    PrependStep(s.emitted, rest, line, s.line, line + Newlines(src[i..]));
  }

  /**
    The `for` loop from position `i` with the line counter at `line`: run the
    body until the source is consumed, then append EOF.
   */
  function Loop(src: string, body: Body, i: nat, line: nat): (r: ScanResult)
    requires i <= |src| && Progresses(src, body)
    decreases |src| - i
    ensures r.Scanned? ==> |r.tokens| > 0 && r.tokens[|r.tokens| - 1].kind == EOF
  {
    if i == |src| then Scanned([Tok(EOF, line)])
    else
      match body(i, line)
      case Advance(ts, n, l) => Prepend(ts, Loop(src, body, i + n, l))
      case Halt(e) => Failed(e)
      case Spin => Diverges
  }

  /**
    The shape of a successful scan: one EOF token, last, carrying the line
    count `last`, and token lines that start at `first` and never decrease.
   */
  predicate Shaped(r: ScanResult, first: nat, last: nat) {
    r.Scanned? ==> EndsWithEof(r.tokens, last) && LinesFrom(r.tokens, first)
  }

  /**
    A successful run of the loop is shaped: its EOF line is the starting
    count plus every line break in the rest of the source.
   */
  lemma {:induction false} LoopShape(src: string, body: Body, i: nat, line: nat)
    requires i <= |src| && SoundBody(src, body)
    decreases |src| - i
    ensures Shaped(Loop(src, body, i, line), line, line + Newlines(src[i..]))
  {
    if i == |src| {
      assert src[i..] == [];
    } else {
      var s := body(i, line);
      if s.Advance? {
        LoopShape(src, body, i + s.length, s.line);
        LoopAdvance(src, body, i, line);
      } else {
        assert !Loop(src, body, i, line).Scanned?;
      }
    }
  }

  lemma LoopAdvance(src: string, body: Body, i: nat, line: nat)
    requires i < |src| && SoundBody(src, body) && body(i, line).Advance?
    requires var s := body(i, line);
      Shaped(Loop(src, body, i + s.length, s.line), s.line, s.line + Newlines(src[i + s.length..]))
    ensures Shaped(Loop(src, body, i, line), line, line + Newlines(src[i..]))
  {
    var s := body(i, line);
    assert Sound(src, i, line, s);
    var rest := Loop(src, body, i + s.length, s.line);
    if rest.Scanned? {
      AdvanceKeepsShape(src, i, line, s, rest.tokens);
    }
  }

  /** One pass of the loop: a step that advances puts its tokens in front of the rest of the scan. */
  lemma LoopUnfolds(src: string, body: Body, i: nat, line: nat)
    requires i < |src| && Progresses(src, body)
    ensures body(i, line).Advance? ==>
      Loop(src, body, i, line) == Prepend(body(i, line).emitted, Loop(src, body, i + body(i, line).length, body(i, line).line))
    ensures body(i, line).Halt? ==> Loop(src, body, i, line) == Failed(body(i, line).error)
    ensures body(i, line).Spin? ==> Loop(src, body, i, line) == Diverges
  {
  }

  /** `scan` of scanner.ts. Lines are counted from 1. */
  function Scan(src: string): (r: ScanResult)
    ensures Shaped(r, 1, 1 + Newlines(src))
  {
    assert src[0..] == src;
    LoopShape(src, BodyOf(Full, src), 0, 1);
    Loop(src, BodyOf(Full, src), 0, 1)
  }

  /** `scanTokens` of index.ts. */
  function ScanTokens(src: string): (r: ScanResult)
    ensures Shaped(r, 1, 1 + Newlines(src))
  {
    assert src[0..] == src;
    LoopShape(src, BodyOf(Early, src), 0, 1);
    Loop(src, BodyOf(Early, src), 0, 1)
  }

  /** The same loop written as the original writes it, with a mutable token list, cursor and line counter. */
  method ScanLoop(src: string, body: Body) returns (r: ScanResult)
    requires Progresses(src, body)
    ensures r == Loop(src, body, 0, 1)
  {
    var tokens: seq<Token> := [];
    var i: nat := 0;
    var line: nat := 1;
    while i < |src|
      invariant i <= |src|
      invariant Loop(src, body, 0, 1) == Prepend(tokens, Loop(src, body, i, line))
      decreases |src| - i
    {
      LoopUnfolds(src, body, i, line);
      match body(i, line)
      case Halt(e) => return Failed(e);
      case Spin => return Diverges;
      case Advance(ts, n, l) =>
        PrependTwice(tokens, ts, Loop(src, body, i + n, l));
        tokens := tokens + ts;
        i := i + n;
        line := l;
    }
    return Scanned(tokens + [Tok(EOF, line)]);
  }
}

=== FILE: scanner_facts.dfy ===
/**
  What each branch of the scanner's loop body does, stated against the
  character classes and token texts rather than against `Step` itself, and
  how the two scanners relate.
 */
module ScannerFacts {
  import opened Base
  import opened Tokens
  import opened Scanner

  /** A one-character punctuation mark becomes the token whose text is that character. */
  lemma PunctuationStep(d: Dialect, src: string, i: nat, line: nat)
    requires i < |src| && src[i] in "(){},.-+;*"
    ensures var s := Step(d, src, i, line);
      && s.Advance? && s.length == 1 && s.line == line
      && |s.emitted| == 1 && s.emitted[0] == Tok(s.emitted[0].kind, line)
      && Text(s.emitted[0].kind) == [src[i]]
  {
    var c := src[i];
    assert SingleKind(c).Some? && Text(SingleKind(c).value) == [c];
  }

  /**
    `!`, `=`, `>` and `<` take the following `=` with them when there is one:
    the token's text is then both characters, otherwise the first alone.
   */
  lemma OperatorStep(d: Dialect, src: string, i: nat, line: nat)
    requires i < |src| && src[i] in "!=><"
    ensures var s := Step(d, src, i, line);
      && s.Advance? && s.line == line
      && |s.emitted| == 1 && s.emitted[0] == Tok(s.emitted[0].kind, line)
      && (s.length == 2 <==> CharAt(src, i + 1) == Some('='))
      && Text(s.emitted[0].kind) == src[i..i + s.length]
  {
    StepIsOperator(d, src, i, line);
    var kinds := DoubleKinds(src[i]).value;
    assert Text(kinds.0) == [src[i]] && Text(kinds.1) == [src[i], '='];
    if CharAt(src, i + 1) == Some('=') {
      assert src[i..i + 2] == [src[i], '='];
    } else {
      assert src[i..i + 1] == [src[i]];
    }
  }

  lemma StepIsOperator(d: Dialect, src: string, i: nat, line: nat)
    requires i < |src| && src[i] in "!=><"
    ensures DoubleKinds(src[i]).Some?
    ensures Step(d, src, i, line) == Operator(src, i, line, DoubleKinds(src[i]).value.0, DoubleKinds(src[i]).value.1)
  {
    assert SingleKind(src[i]).None?;
  }

  /** A `/` not followed by another `/` is the division token. */
  lemma SlashStep(d: Dialect, src: string, i: nat, line: nat)
    requires i < |src| && src[i] == '/' && CharAt(src, i + 1) != Some('/')
    ensures Step(d, src, i, line) == Advance([Tok(ForwardSlash, line)], 1, line)
  {
  }

  /**
    `//` starts a comment that emits nothing and is consumed up to and
    including the first line break after it. Without such a line break the
    loop never ends.
   */
  lemma CommentStep(d: Dialect, src: string, i: nat, line: nat)
    requires i + 1 < |src| && src[i] == '/' && src[i + 1] == '/'
    ensures var s := Step(d, src, i, line);
      && (s.Advance? <==> '\n' in src[i + 1..])
      && (s.Advance? ==>
            && s.emitted == [] && s.line == line + 1
            && src[i + s.length - 1] == '\n' && '\n' !in src[i..i + s.length - 1])
      && (!s.Advance? ==> s == Spin)
  {
    var s := Step(d, src, i, line);
    match IndexFrom(src, i + 1, '\n')
    case None =>
    case Some(j) =>
      assert src[i..j] == [src[i]] + src[i + 1..j];
      assert src[i + 1..][j - i - 1] == '\n';
  }

  /** Spaces, tabs and carriage returns are skipped; a line break only counts a line. */
  lemma BlankStep(d: Dialect, src: string, i: nat, line: nat)
    requires i < |src| && src[i] in " \r\t\n"
    ensures Step(d, src, i, line) == Advance([], 1, if src[i] == '\n' then line + 1 else line)
  {
  }

  /**
    A string literal is the text between the opening quote and the next
    quote, stamped with the line it starts on; both quotes are consumed and
    every line break inside counts. Without a closing quote the scan exits
    fatally, reporting the line reached at the end of the source.
   */
  lemma StringStep(d: Dialect, src: string, i: nat, line: nat)
    requires i < |src| && src[i] == '"'
    ensures var s := Step(d, src, i, line);
      && (s.Advance? <==> '"' in src[i + 1..])
      && (s.Advance? ==>
            && 2 <= s.length && src[i + s.length - 1] == '"'
            && var text := src[i + 1..i + s.length - 1];
            && '"' !in text
            && s.emitted == [Token(String, None, Some(text), line)]
            && s.line == line + Newlines(text))
      && (!s.Advance? ==>
            s == Halt(Fatal(Component(d), "unterminated string", line + Newlines(src[i + 1..]))))
  {
    match IndexFrom(src, i + 1, '"')
    case None =>
    case Some(j) =>
      assert src[i + 1..][j - i - 1] == '"';
  }

  /**
    A digit starts a number literal (scanner.ts only): the longest run of
    digits and dots, kept as its text.
   */
  lemma NumberStep(src: string, i: nat, line: nat)
    requires i < |src| && IsDigit(Some(src[i]))
    ensures var s := Step(Full, src, i, line);
      && s.Advance? && s.line == line
      && (forall k :: i <= k < i + s.length ==> IsDigitOrDot(Some(src[k])))
      && !IsDigitOrDot(CharAt(src, i + s.length))
      && s.emitted == [Token(Number, None, Some(src[i..i + s.length]), line)]
  {
    var c := src[i];
    assert SingleKind(c).None? && DoubleKinds(c).None?;
  }

  /** In `scan`, a letter starts a word. */
  lemma LetterStartsWord(src: string, i: nat, line: nat)
    requires i < |src| && IsAlpha(Some(src[i]))
    ensures Step(Full, src, i, line) == Word(src, i, line)
  {
    var c := src[i];
    assert SingleKind(c).None? && DoubleKinds(c).None? && !IsDigit(Some(c));
  }

  /**
    A word is the longest run of letters, digits and underscores. It is a
    keyword token exactly when some keyword matches it ignoring case; any
    other word is a fatal error.
   */
  lemma WordStep(src: string, i: nat, line: nat)
    requires i < |src| && IsAlpha(Some(src[i]))
    ensures var e := RunEnd(src, i, IsAlphaNumeric);
      var s := Word(src, i, line);
      && (s.Advance? <==> exists k :: IsKeyword(k) && Upper(Text(k)) == Upper(src[i..e]))
      && (s.Advance? ==>
            && s.length == e - i && s.line == line
            && |s.emitted| == 1 && s.emitted[0] == Tok(s.emitted[0].kind, line)
            && IsKeyword(s.emitted[0].kind)
            && Upper(Text(s.emitted[0].kind)) == Upper(src[i..e]))
      && (!s.Advance? ==> s == Halt(Fatal("scanner", "failed to scan token", line)))
  {
    var e := RunEnd(src, i, IsAlphaNumeric);
    var word := src[i..e];
    if KeywordKind(word).None? {
      forall k | IsKeyword(k)
        ensures Upper(Text(k)) != Upper(word)
      {
        KeywordKindIff(word, k);
      }
    }
  }

  /**
    `scanTokens` has no number or word branch: a digit or letter outside a
    string or comment is a fatal error there, reported without a component.
   */
  lemma EarlyRejectsWords(src: string, i: nat, line: nat)
    requires i < |src| && IsAlphaNumeric(Some(src[i]))
    ensures Step(Early, src, i, line) == Halt(Fatal("", "failed to scan token", line))
  {
  }

  /** Any character no branch accepts is a fatal error in both scanners. */
  lemma UnknownCharStep(d: Dialect, src: string, i: nat, line: nat)
    requires i < |src|
    requires src[i] !in "(){},.-+;*!=></ \r\t\n\"" && !IsAlphaNumeric(Some(src[i]))
    ensures Step(d, src, i, line) == Halt(Fatal(Component(d), "failed to scan token", line))
  {
  }

  /** Wherever `scanTokens` does not exit, it takes exactly the step `scan` takes. */
  lemma SameStep(src: string, i: nat, line: nat)
    requires i < |src|
    ensures !Step(Early, src, i, line).Halt? ==> Step(Early, src, i, line) == Step(Full, src, i, line)
  {
  }

  /**
    Two loop bodies that take the same step wherever the first does not exit
    give the same successful scans.
   */
  lemma {:induction false} LoopsAgree(src: string, b1: Body, b2: Body, i: nat, line: nat)
    requires i <= |src| && Progresses(src, b1) && Progresses(src, b2)
    requires forall j: nat, l: nat :: j < |src| && !b1(j, l).Halt? ==> b1(j, l) == b2(j, l)
    decreases |src| - i
    ensures Loop(src, b1, i, line).Scanned? ==> Loop(src, b1, i, line) == Loop(src, b2, i, line)
  {
    if i < |src| {
      LoopUnfolds(src, b1, i, line);
      LoopUnfolds(src, b2, i, line);
      var s := b1(i, line);
      if !s.Halt? {
        assert b2(i, line) == s;
      }
      if s.Advance? {
        LoopsAgree(src, b1, b2, i + s.length, s.line);
      }
    }
  }

  /**
    `scanTokens` is `scan` restricted to sources without number and word
    tokens: whatever it scans successfully, `scan` scans to the same tokens.
   */
  lemma ScanTokensIsScan(src: string)
    ensures ScanTokens(src).Scanned? ==> ScanTokens(src) == Scan(src)
  {
    var early, full := BodyOf(Early, src), BodyOf(Full, src);
    forall j: nat, l: nat | j < |src| && !early(j, l).Halt?
      ensures early(j, l) == full(j, l)
    {
      SameStep(src, j, l);
    }
    LoopsAgree(src, early, full, 0, 1);
  }
}

=== FILE: tokens.dfy ===
/**
  The token model (tokens.ts): the closed set of token kinds, the token record,
  the character classes the scanner dispatches on, and the keyword table the
  scanner looks alphabetic runs up in (scanner.ts).

  In the original every `TokenType` member is a string-valued enum member; the
  scanner builds keyword tokens by casting a table string to `TokenType`.
  `Text` gives each kind its string value and `FromText` is that cast.
 */
module Tokens {
  import opened Base

  datatype TokenType =
    // one character
    | OpenParen | CloseParen | OpenCurly | CloseCurly | Comma | Dot
    | Minus | Plus | Semicolon | ForwardSlash | DoubleForwardSlash | Asterisk
    // one or two characters
    | Bang | BangEqual | Equal | EqualEqual
    | Greater | GreaterEqual | Lesser | LesserEqual
    // keywords
    | And | Class | Else | False | Fun | For | If | Nil | Or | Print
    | Return | Super | This | True | Var | While
    // literals
    | Identifier | String | Number
    // special
    | EOF

  /**
    The string value of each enum member. None is empty, and the keywords'
    values are lower-case, which is what the scanner's table maps to.
   */
  function Text(k: TokenType): (r: string)
    ensures |r| > 0
    ensures IsKeyword(k) ==> forall j :: 0 <= j < |r| ==> 'a' <= r[j] <= 'z'
  {
    match k
    case OpenParen => "(" case CloseParen => ")"
    case OpenCurly => "{" case CloseCurly => "}"
    case Comma => "," case Dot => "." case Minus => "-" case Plus => "+"
    case Semicolon => ";" case ForwardSlash => "/"
    case DoubleForwardSlash => "//" case Asterisk => "*"
    case Bang => "!" case BangEqual => "!="
    case Equal => "=" case EqualEqual => "=="
    case Greater => ">" case GreaterEqual => ">="
    case Lesser => "<" case LesserEqual => "<="
    case And => "and" case Class => "class" case Else => "else"
    case False => "false" case Fun => "fun" case For => "for"
    case If => "if" case Nil => "nil" case Or => "or" case Print => "print"
    case Return => "return" case Super => "super" case This => "this"
    case True => "true" case Var => "var" case While => "while"
    case Identifier => "identifier" case String => "string"
    case Number => "number"
    case EOF => "EOF"
  }

  /** The `as TokenType` cast: the member whose string value is `s`, if any. */
  function FromText(s: string): Option<TokenType> {
    match s
    case "(" => Some(OpenParen) case ")" => Some(CloseParen)
    case "{" => Some(OpenCurly) case "}" => Some(CloseCurly)
    case "," => Some(Comma) case "." => Some(Dot)
    case "-" => Some(Minus) case "+" => Some(Plus)
    case ";" => Some(Semicolon) case "/" => Some(ForwardSlash)
    case "//" => Some(DoubleForwardSlash) case "*" => Some(Asterisk)
    case "!" => Some(Bang) case "!=" => Some(BangEqual)
    case "=" => Some(Equal) case "==" => Some(EqualEqual)
    case ">" => Some(Greater) case ">=" => Some(GreaterEqual)
    case "<" => Some(Lesser) case "<=" => Some(LesserEqual)
    case "and" => Some(And) case "class" => Some(Class)
    case "else" => Some(Else) case "false" => Some(False)
    case "fun" => Some(Fun) case "for" => Some(For)
    case "if" => Some(If) case "nil" => Some(Nil)
    case "or" => Some(Or) case "print" => Some(Print)
    case "return" => Some(Return) case "super" => Some(Super)
    case "this" => Some(This) case "true" => Some(True)
    case "var" => Some(Var) case "while" => Some(While)
    case "identifier" => Some(Identifier) case "string" => Some(String)
    case "number" => Some(Number)
    case "EOF" => Some(EOF)
    case _ => None
  }

  predicate IsKeyword(k: TokenType) {
    k in {And, Class, Else, False, Fun, For, If, Nil, Or, Print,
          Return, Super, This, True, Var, While}
  }

  /** Casting a kind's own string value gives back that kind. */
  lemma TextRoundTrip(k: TokenType)
    ensures FromText(Text(k)) == Some(k)
  {
  }

  /** A string the cast accepts is the string value of the kind it yields. */
  lemma FromTextInverts(s: string)
    ensures FromText(s).Some? ==> Text(FromText(s).value) == s
  {
    if |s| == 0 {
      assert FromText(s).None?;
    } else if s[0] < '=' {
      InvertsFromSymbol(s);
    } else if s[0] < 'a' || 'z' < s[0] {
      InvertsFromOther(s);
    } else if s[0] <= 'm' {
      InvertsFromAToM(s);
    } else if s[0] <= 'r' {
      InvertsFromNToR(s);
    } else {
      InvertsFromSToZ(s);
    }
  }

  // The cast inverts `Text`, split by the first character to keep each proof small.
  lemma InvertsFromSymbol(s: string)
    requires |s| > 0 && s[0] < '='
    ensures FromText(s).Some? ==> Text(FromText(s).value) == s
  {
  }

  lemma InvertsFromOther(s: string)
    requires |s| > 0 && '=' <= s[0] && !('a' <= s[0] <= 'z')
    ensures FromText(s).Some? ==> Text(FromText(s).value) == s
  {
  }

  lemma InvertsFromAToM(s: string)
    requires |s| > 0 && 'a' <= s[0] <= 'm'
    ensures FromText(s).Some? ==> Text(FromText(s).value) == s
  {
  }

  lemma InvertsFromNToR(s: string)
    requires |s| > 0 && 'n' <= s[0] <= 'r'
    ensures FromText(s).Some? ==> Text(FromText(s).value) == s
  {
  }

  lemma InvertsFromSToZ(s: string)
    requires |s| > 0 && 's' <= s[0] <= 'z'
    ensures FromText(s).Some? ==> Text(FromText(s).value) == s
  {
  }

  /** All kinds have distinct string values, so the cast is unambiguous. */
  lemma TextInjective(a: TokenType, b: TokenType)
    ensures Text(a) == Text(b) ==> a == b
  {
    TextRoundTrip(a);
    TextRoundTrip(b);
  }

  /**
    A token. `lexeme` is never filled in by either scanner; `literal` holds the
    raw text of a string literal, or the digit-and-dot text of a number literal
    (the original converts that text with `Number`, which is not modelled).
   */
  datatype Token = Token(kind: TokenType, lexeme: Option<string>, literal: Option<string>, line: nat)

  /**
    The property key JavaScript derives from `token.lexeme` when it is used
    with `in` or as an index: the lexeme itself, or "undefined" when absent.
   */
  function LexemeKey(t: Token): string {
    if t.lexeme.Some? then t.lexeme.value else "undefined"
  }

  // ----- character classes ---------------------------------------------------

  /** The members of the regular-expression classes `\d`, `[\d.]`, `[a-zA-Z_]`, listed out. */
  const DIGITS: string := "0123456789"
  const LOWER_LETTERS: string := "abcdefghijklmnopqrstuvwxyz"
  const UPPER_LETTERS: string := "ABCDEFGHIJKLMNOPQRSTUVWXYZ"
  const LETTERS: string := LOWER_LETTERS + UPPER_LETTERS + "_"

  /**
    The character at index `i`, or `None` where JavaScript's `source[i]` would
    be `undefined` (past either end).
   */
  function CharAt(s: string, i: int): (r: Option<char>)
    ensures r.Some? <==> 0 <= i < |s|
    ensures r.Some? ==> r.value == s[i]
  {
    if 0 <= i < |s| then Some(s[i]) else None
  }

  /** `isDigit`: `undefined` is not a digit; otherwise the class `\d`. */
  function IsDigit(c: Option<char>): (b: bool)
    ensures b ==> c.Some? && c.value != '.'
  {
    c.Some? && '0' <= c.value <= '9'
  }

  /** `isDigitOrDot`: the class `[\d.]`. */
  function IsDigitOrDot(c: Option<char>): (b: bool)
    ensures b ==> c.Some?
    ensures IsDigit(c) ==> b
  {
    c.Some? && ('0' <= c.value <= '9' || c.value == '.')
  }

  /** `isAlpha`: the class `[a-zA-Z_]`; no letter is a digit. */
  function IsAlpha(c: Option<char>): (b: bool)
    ensures b ==> c.Some? && !IsDigitOrDot(c)
  {
    c.Some? && ('a' <= c.value <= 'z' || 'A' <= c.value <= 'Z' || c.value == '_')
  }

  /** `isAlphaNumeric`: a letter, `_` or a digit, but never `.` or `undefined`. */
  function IsAlphaNumeric(c: Option<char>): (b: bool)
    ensures b ==> c.Some? && c.value != '.'
  {
    IsAlpha(c) || IsDigit(c)
  }

  /** Each class holds exactly the characters listed for it, and never `undefined`. */
  lemma ClassesListed(c: Option<char>)
    ensures IsDigit(c) <==> c.Some? && c.value in DIGITS
    ensures IsDigitOrDot(c) <==> c.Some? && (c.value in DIGITS || c.value == '.')
    ensures IsAlpha(c) <==> c.Some? && c.value in LETTERS
    ensures IsAlphaNumeric(c) <==> c.Some? && (c.value in LETTERS || c.value in DIGITS)
  {
    if c.Some? {
      LetterRanges(c.value);
      DigitRange(c.value);
    }
  }

  /**
    How the classes relate: every digit is also accepted by `isDigitOrDot`, no
    letter is a digit, and `.` is not alphanumeric.
   */
  lemma ClassRelations(c: Option<char>)
    ensures IsDigit(c) ==> IsDigitOrDot(c) && IsAlphaNumeric(c)
    ensures IsAlpha(c) ==> !IsDigit(c) && IsAlphaNumeric(c)
    ensures IsAlphaNumeric(c) <==> IsAlpha(c) || IsDigit(c)
    ensures c == Some('.') ==> IsDigitOrDot(c) && !IsAlphaNumeric(c)
  {
  }

  lemma DigitRange(c: char)
    ensures '0' <= c <= '9' <==> c in DIGITS
  {
    if '0' <= c <= '9' {
      assert DIGITS[c as int - '0' as int] == c;
    }
  }

  /** The ranges `a-z` and `A-Z` of the class `[a-zA-Z_]` are exactly the listed letters. */
  lemma LetterRanges(c: char)
    ensures 'a' <= c <= 'z' <==> c in LOWER_LETTERS
    ensures 'A' <= c <= 'Z' <==> c in UPPER_LETTERS
    ensures c in LETTERS <==> c in LOWER_LETTERS || c in UPPER_LETTERS || c == '_'
  {
    LowerRange(c);
    UpperRange(c);
  }

  lemma LowerRange(c: char)
    ensures 'a' <= c <= 'z' <==> c in LOWER_LETTERS
  {
    if 'a' <= c <= 'z' {
      assert LOWER_LETTERS[c as int - 'a' as int] == c;
    }
  }

  lemma UpperRange(c: char)
    ensures 'A' <= c <= 'Z' <==> c in UPPER_LETTERS
  {
    if 'A' <= c <= 'Z' {
      assert UPPER_LETTERS[c as int - 'A' as int] == c;
    }
  }

  // ----- ASCII case mapping and the keyword table ----------------------------

  function UpperChar(c: char): char {
    if 'a' <= c <= 'z' then (c as int - 32) as char else c
  }

  /** `toUpperCase`, restricted to ASCII letters. */
  function Upper(s: string): (r: string)
    ensures |r| == |s|
    ensures forall i :: 0 <= i < |s| ==> r[i] == UpperChar(s[i])
  {
    seq(|s|, i requires 0 <= i < |s| => UpperChar(s[i]))
  }

  /**
    The scanner's keyword table, read as `keywords[key]`: upper-case keyword to
    the lower-case string the scanner casts to `TokenType`; `None` stands for
    the `undefined` of a missing key.
   */
  function Keyword(key: string): (r: Option<string>)
    ensures r.Some? ==> |r.value| == |key| && forall j :: 0 <= j < |key| ==> 'A' <= key[j] <= 'Z'
  {
    match key
    case "AND" => Some("and")
    case "CLASS" => Some("class")
    case "ELSE" => Some("else")
    case "FALSE" => Some("false")
    case "FUN" => Some("fun")
    case "FOR" => Some("for")
    case "IF" => Some("if")
    case "NIL" => Some("nil")
    case "OR" => Some("or")
    case "PRINT" => Some("print")
    case "RETURN" => Some("return")
    case "SUPER" => Some("super")
    case "THIS" => Some("this")
    case "TRUE" => Some("true")
    case "VAR" => Some("var")
    case "WHILE" => Some("while")
    case _ => None
  }

  // Upper-casing each keyword's text, four at a time to keep each proof small.
  lemma UpperKeywords0()
    ensures Upper("and") == "AND"
    ensures Upper("class") == "CLASS"
    ensures Upper("else") == "ELSE"
    ensures Upper("false") == "FALSE"
  {
  }

  lemma UpperKeywords1()
    ensures Upper("fun") == "FUN"
    ensures Upper("for") == "FOR"
    ensures Upper("if") == "IF"
    ensures Upper("nil") == "NIL"
  {
  }

  lemma UpperKeywords2()
    ensures Upper("or") == "OR"
    ensures Upper("print") == "PRINT"
    ensures Upper("return") == "RETURN"
    ensures Upper("super") == "SUPER"
  {
  }

  lemma UpperKeywords3()
    ensures Upper("this") == "THIS"
    ensures Upper("true") == "TRUE"
    ensures Upper("var") == "VAR"
    ensures Upper("while") == "WHILE"
  {
  }

  /** Each keyword kind is in the table under its upper-cased text. */
  lemma KeywordsInTable(k: TokenType)
    requires IsKeyword(k)
    ensures Keyword(Upper(Text(k))) == Some(Text(k))
  {
    match k
    case And | Class | Else | False => UpperKeywords0();
    case Fun | For | If | Nil => UpperKeywords1();
    case Or | Print | Return | Super => UpperKeywords2();
    case This | True | Var | While => UpperKeywords3();
    case _ =>
  }

  /** Every key of the table is the upper-cased text of the keyword kind its value casts to. */
  lemma TableHoldsKeywords(u: string)
    requires Keyword(u).Some?
    ensures FromText(Keyword(u).value).Some?
    ensures IsKeyword(FromText(Keyword(u).value).value)
    ensures Upper(Text(FromText(Keyword(u).value).value)) == u
  {
    if u in {"AND", "CLASS", "ELSE", "FALSE"} {
      KeysOfGroup0(u);
    } else if u in {"FUN", "FOR", "IF", "NIL"} {
      KeysOfGroup1(u);
    } else if u in {"OR", "PRINT", "RETURN", "SUPER"} {
      KeysOfGroup2(u);
    } else {
      KeysOfGroup3(u);
    }
  }

  lemma KeysOfGroup0(u: string)
    requires u in {"AND", "CLASS", "ELSE", "FALSE"}
    ensures FromText(Keyword(u).value).Some?
    ensures IsKeyword(FromText(Keyword(u).value).value)
    ensures Upper(Text(FromText(Keyword(u).value).value)) == u
  {
    UpperKeywords0();
    if u == "AND" { TextRoundTrip(And); }
    else if u == "CLASS" { TextRoundTrip(Class); }
    else if u == "ELSE" { TextRoundTrip(Else); }
    else { TextRoundTrip(False); }
  }

  lemma KeysOfGroup1(u: string)
    requires u in {"FUN", "FOR", "IF", "NIL"}
    ensures FromText(Keyword(u).value).Some?
    ensures IsKeyword(FromText(Keyword(u).value).value)
    ensures Upper(Text(FromText(Keyword(u).value).value)) == u
  {
    UpperKeywords1();
    if u == "FUN" { TextRoundTrip(Fun); }
    else if u == "FOR" { TextRoundTrip(For); }
    else if u == "IF" { TextRoundTrip(If); }
    else { TextRoundTrip(Nil); }
  }

  lemma KeysOfGroup2(u: string)
    requires u in {"OR", "PRINT", "RETURN", "SUPER"}
    ensures FromText(Keyword(u).value).Some?
    ensures IsKeyword(FromText(Keyword(u).value).value)
    ensures Upper(Text(FromText(Keyword(u).value).value)) == u
  {
    UpperKeywords2();
    if u == "OR" { TextRoundTrip(Or); }
    else if u == "PRINT" { TextRoundTrip(Print); }
    else if u == "RETURN" { TextRoundTrip(Return); }
    else { TextRoundTrip(Super); }
  }

  lemma KeysOfGroup3(u: string)
    requires u in {"THIS", "TRUE", "VAR", "WHILE"}
    ensures FromText(Keyword(u).value).Some?
    ensures IsKeyword(FromText(Keyword(u).value).value)
    ensures Upper(Text(FromText(Keyword(u).value).value)) == u
  {
    UpperKeywords3();
    if u == "THIS" { TextRoundTrip(This); }
    else if u == "TRUE" { TextRoundTrip(True); }
    else if u == "VAR" { TextRoundTrip(Var); }
    else { TextRoundTrip(While); }
  }

  /**
    The keyword table is exactly the keyword kinds: each keyword kind is in the
    table under its upper-cased text, and every key is the upper-cased text of
    the keyword kind that its value casts to, so the scanner's cast of a table
    value always yields a keyword kind.
   */
  lemma KeywordTable()
    ensures forall k :: IsKeyword(k) ==> Keyword(Upper(Text(k))) == Some(Text(k))
    ensures forall u :: Keyword(u).Some? ==>
      && FromText(Keyword(u).value).Some?
      && IsKeyword(FromText(Keyword(u).value).value)
      && Upper(Text(FromText(Keyword(u).value).value)) == u
  {
    forall k | IsKeyword(k)
      ensures Keyword(Upper(Text(k))) == Some(Text(k))
    {
      KeywordsInTable(k);
    }
    forall u | Keyword(u).Some?
      ensures FromText(Keyword(u).value).Some?
      ensures IsKeyword(FromText(Keyword(u).value).value)
      ensures Upper(Text(FromText(Keyword(u).value).value)) == u
    {
      TableHoldsKeywords(u);
    }
  }

  /**
    The keyword kind of an alphabetic run, matched case-insensitively
    (scanner.ts looks `literal.toUpperCase()` up in its table).
   */
  function KeywordKind(word: string): (r: Option<TokenType>)
    ensures r.Some? ==> IsKeyword(r.value) && Upper(Text(r.value)) == Upper(word)
  {
    KeywordTable();
    var v := Keyword(Upper(word));
    if v.Some? then FromText(v.value) else None
  }

  /**
    A run names keyword `k` exactly when it equals `k`'s text up to case, so
    `print`, `Print` and `PRINT` all give `Print`.
   */
  lemma KeywordKindIff(word: string, k: TokenType)
    ensures KeywordKind(word) == Some(k) <==> IsKeyword(k) && Upper(Text(k)) == Upper(word)
  {
    KeywordTable();
    if IsKeyword(k) && Upper(Text(k)) == Upper(word) {
      TextRoundTrip(k);
    }
  }
}
